=== FILE: README.md ===
# Battleship: shot resolution and turn rules

A Dafny model of the rules engine of a two-player pygame Battleship game
that has powerups and a computer opponent. Cells, boards, the CPU and the
match state are immutable datatypes. Every operation is a pure function,
or a method where the source loops. Random draws, the square size
(`COL_SIZE`), the grid size and the board's vertical offset are
parameters.

Modules follow the source files:

| module | file | what it holds |
|---|---|---|
| `Types` | — | `Pos` (pixel points and grid coordinates alike, as in the source), `Player`, `Option`, and floor-division lemmas |
| `Cells` | `cell.dfy` | a cell's flags and pixel rectangle, the one-way hit, the highlight |
| `Boards` | `board.dfy` | the grid, the powerup inventory and award, `hit_pos`, ship placement checks, the sunk predicates |
| `Opponent` | `cpu.dfy` | random fleet generation, the shot record, the easy strategy, the hard strategy's opening move |
| `Games` | `game.dfy` | the match fields, shot selection, CPU game start, the CPU turn, the end-of-game rule, restart |
| `Playing` | `playing.dfy` | pixel-to-grid conversion, shot patterns, firing, the volley, the powerup keys, the turn timer |
| `Transition` | `turn_transition.dfy` | handing the move to the other player |

The model follows the code as written, including its quirks. Each of the
following is proved:

- **The CPU always misses.** `CPU.record_hit` passes a cell's grid
  coordinate to a point test that works in pixel space. For non-negative
  coordinates and offset, that point always lies above or left of the
  cell, so the easy strategy always records a miss and never changes the
  board (`Opponent.RecordHitAlwaysMisses`, `Opponent.EasyAttackRecordsMiss`).
- **The sunk check is inverted.** `check_ship_sunk` is true when a ship
  under the cell still has an unhit square (`Boards.CheckShipSunkIsInverted`).
- **The sunk check uses the wrong key.** It keys on the cell's pixel
  corner divided by the square size. That is the cell's own coordinate
  exactly when `COL_SIZE > 3` and `0 <= 3 + offset < COL_SIZE`. On player one's
  board, drawn half a screen down, the key is a different row
  (`Boards.SunkKeyOfPlaced`).
- **Two powerups are never awarded.** The guards for the two bombing-run
  slots repeat the `< 0.2` test, so slots 1 and 2 are unreachable
  (`Boards.AwardSlot`, `Boards.RunsNeverAwarded`).
- **Misses earn powerups.** `hit_pos` runs the powerup award for every
  cell it freshly hits, ship or not (`Boards.HitPos`).
- **Volley and radar clicks raise.** The click handler calls
  `highlight_cells` and `reset_highlights` on a board, and the board class
  defines neither, so the first volley click and every radar click raise
  before any shot (`Playing.ClickAsWritten`, see Findings).
- **The medium and hard CPUs never fire.** The medium strategy indexes
  the grid with a coordinate pair and always raises; the hard strategy's
  second call raises on the fleet it recorded in its first
  (`Games.AiTurn`, `Games.HardSecondCallRaises`).
- **An empty fleet loses at once.** With a ship count of zero, a restarted
  game is over immediately (`Games.ResetGameNotOver`).

## Model

| member | source | states |
|---|---|---|
| Cells.NewCell | src/cell.py:13-29 | a new cell has every state flag down, holds its own grid coordinate, and is drawn at the rectangle with corner (x·C+3, y·C+3+offset) and side C−7 |
| Cells.Hit | src/cell.py:73-92 | a shot takes effect iff the point is inside the rectangle and the cell was not hit before; the cell ends hit iff it was hit or the point is inside; no other field changes |
| Cells.Highlight | src/cell.py:94-96 | sets the highlight flag to the given value and changes nothing else |
| Cells.HitIsMonotone | src/cell.py:84-85 | a hit cell stays hit and unchanged whatever point is shot at it next |
| Cells.HitTwice | src/cell.py:84-92 | a second shot at the same point takes no effect and changes nothing |
| Cells.ContainsLocates | src/cell.py:23-29 | a point inside cell (x, y) has x and y as its floor quotients once margin and offset are removed |
| Cells.CellsDisjoint | src/cell.py:23-29 | two cells of one board that share a point are the same grid position |
| Cells.OwnCoordinateOutside | src/cell.py:22-29 | for non-negative coordinates and offset, a cell never contains its own grid coordinate read as a pixel |
| Boards.NewBoard | src/board.py:14-19 | a new board is an N×N grid where cell (x, y) sits at its own position with all flags down; no ships; five empty powerup slots |
| Boards.SetPowerups | src/board.py:21-31 | reading the inventory back after setting it returns what was set; cells and ships are untouched |
| Boards.AwardSlot | src/board.py:68-97 | the second roll picks slot 0 below 0.2, slot 3 in [0.2, 0.9), slot 4 from 0.9; slots 1 and 2 are never picked |
| Boards.Award | src/board.py:62-97 | the award never clears a slot, changes at most the picked slot, changes nothing when the first roll is at least 0.9, and otherwise leaves the picked slot stocked |
| Boards.AwardIdempotent | src/board.py:62-97 | applying the award twice with the same rolls gives the same inventory as once |
| Boards.RunsNeverAwarded | src/board.py:74-85 | the two bombing-run slots keep their value under every award |
| Boards.FindInRow | src/board.py:52-53 | the scan of one row finds the first cell accepting the point, or reports that none does |
| Boards.FindCell | src/board.py:51-53 | the row-major scan finds the first accepting cell of the grid, or reports that none does |
| Boards.HitPos | src/board.py:40-60 | no cell is hit iff no cell accepts the point, and then the board is unchanged; otherwise exactly one cell changes: the first accepting cell in row-by-row order becomes hit and is returned, and the award runs once; ships never change |
| Boards.HitPosKeepsLayout | src/board.py:51-56 | a shot keeps every cell at its grid position |
| Boards.HitPosLocates | src/board.py:51-56 | the cell a shot hits on a laid-out board is the one whose square holds the point |
| Boards.HitPosTwice | src/board.py:51-60 | a second shot at the same point of a laid-out board hits nothing and changes nothing, whatever the rolls |
| Boards.HitPosMarks | src/board.py:51-56 | after a shot a cell is hit iff it was hit or its square holds the point |
| Boards.ClearOf | src/board.py:162-165 | the loop over placed ships passes iff the new ship shares no square with any of them |
| Boards.IsValidShipLocation | src/board.py:157-165 | the location is valid iff the new ship's squares miss every placed ship's squares; grid bounds are not checked |
| Boards.ResetCells | src/board.py:167-173 | every cell's active flag is cleared and nothing else changes |
| Boards.MarkCells | src/board.py:179-180 | a cell gains the ship flag iff it is at one of the coordinates; every other field of every cell is kept |
| Boards.MarkShipCells | src/board.py:175-180 | exactly the cells at the ship's coordinates gain the ship flag; ships, inventory and every other field are kept |
| Boards.AcceptShip | src/board.py:135-139 | confirming a placement succeeds iff the ship misses the fleet; then the ship is appended, exactly its cells gain the ship flag, and the ship count and inventory are kept |
| Boards.AcceptShipKeepsFleet | src/board.py:135-139 | accepting ships keeps the fleet pairwise disjoint and the ship flags equal to the fleet's squares |
| Boards.AllHit | src/board.py:205-209 | the loop over a ship's coordinates passes iff every one of its cells is hit |
| Boards.IsShipSunk | src/board.py:204-209 | a ship is sunk iff every cell at its coordinates is hit |
| Boards.EverySunk | src/board.py:184-187 | the loop over ships passes iff every ship from the given index on is sunk |
| Boards.AllShipsSunk | src/board.py:182-188 | the board is lost iff every ship has been placed and every square of every ship is hit |
| Boards.AfloatFrom | src/board.py:193-202 | the loop finds a ship holding the key with an unhit square, or reports that none exists |
| Boards.CheckShipSunk | src/board.py:190-202 | the check is true iff some ship holding the key from the cell's pixel corner has an unhit square |
| Boards.SunkKeyOfPlaced | src/board.py:195 | the key equals (x + 3 div C, y + (3+offset) div C), which is the cell's own coordinate exactly when C > 3 and 0 ≤ 3 + offset < C |
| Boards.CheckShipSunkIsInverted | src/board.py:193-202 | whenever the key is the cell's own square (C > 3 and 0 ≤ 3 + offset < C), the check is false off the fleet and, on a ship, true exactly when that ship is not sunk |
| Opponent.ShipCoords | src/cpu.py:57-68 | a generated ship is `size` consecutive squares along the drawn axis, starting at the drawn head, or `size` squares before it when the ship would run past index 9; the other coordinate stays at the drawn head |
| Opponent.ShipCoordsInRange | src/cpu.py:54-68 | for lengths 1..5 and heads in 0..9, the clamp keeps the axis coordinate in 0..8 and the other in 0..9 |
| Opponent.AnyUsed | src/cpu.py:70-73 | the scan over the new ship's coordinates reports a clash iff one of them is already in the used list |
| Opponent.PlaceShip | src/cpu.py:49-76 | an attempt is rejected iff one of its generated squares is already used; otherwise it yields exactly the generated squares |
| Opponent.CreateShips | src/cpu.py:22-38 | each accepted attempt misses every square used so far, so the fleet is pairwise disjoint; ship k has length k + 1 and comes from one of the draws; exactly the fleet's squares are marked; the fleet is short only when the draws run out, and draws that are disjoint from the start are each accepted at once |
| Opponent.NewCpu | src/cpu.py:12-19 | a new CPU has an empty record and a disjoint generated fleet of at most the asked size (exactly that size when the draws are disjoint), which is also its board's ship list, on a laid-out board with exactly the fleet's squares marked, no cell hit, active or highlighted and no powerups; with at least one ship asked for, its board is not lost |
| Opponent.RecordHit | src/cpu.py:40-46 | the coordinate goes to exactly one of hits or misses: to hits iff the cell accepts its own coordinate as a point, and then that cell alone becomes hit; otherwise the board is unchanged |
| Opponent.RecordHitAlwaysMisses | src/cpu.py:41-43 | on a laid-out board the record always grows misses and the board is unchanged |
| Opponent.EasyAttack | src/cpu.py:78-100 | the target's coordinate joins hits iff its cell accepts the coordinate as a point and misses otherwise, the other list unchanged; the sunk count grows by one iff the sunk check holds; the fleet and own board of the CPU are kept; on the opposing board only that cell can become hit, as the shot record makes it, with ships, count and inventory kept |
| Opponent.EasyAttackRecordsMiss | src/cpu.py:92-96 | on a laid-out board the target joins the misses, so it can never be drawn again; the board is untouched |
| Opponent.FleetEntries | src/cpu.py:224-225 | one entry per ship, holding that ship's coordinate list, in ship order |
| Opponent.HardAttackSetup | src/cpu.py:221-225 | the first hard call copies every opposing ship's coordinate list into hits, in order, and changes nothing else |
| Games.NewGame | src/game.py:21-43 | player one to move with a single shot, no powerup in use, no winner, the game not over, no boards and no CPU |
| Games.SetNumShips | src/game.py:58-64 | two fresh boards for the chosen count: every cell pristine, no ships, an empty inventory, player one's drawn half a screen down |
| Games.RotateShotSelection | src/game.py:66-81 | keys 1..5 select the shot of the matching inventory slot; any other key changes nothing |
| Games.RotateIsInjective | src/game.py:66-81 | different keys select different shots, and none selects the single shot |
| Games.SetPowerupActivity | src/game.py:83-84 | a powerup is marked in use and nothing else changes |
| Games.ResetShotSelection | src/game.py:86-88 | back to the single shot with no powerup in use, nothing else changed |
| Games.StartAiGame | src/game.py:90-96 | player two's board is the CPU's generated board with a disjoint fleet of at most the ship count and no cell hit, active or highlighted; player one gets an empty board of pristine cells; both boards have no powerups and the ship count as their size; the CPU's record is empty; ship selection follows, all else is kept, and with at least one ship the end check finds nothing |
| Games.AiTurn | src/game.py:132-144 | the easy and first hard moves act on player one's board and the CPU, and then player one moves; the medium move always raises, and so does a later hard move once anything is recorded; a later hard move with nothing recorded, and an unknown difficulty, only hand the move back; without a CPU nothing changes; a completed turn changes nothing but the CPU, player one's board and the player to move |
| Games.AiTurnHandsBack | src/game.py:132-144 | the CPU's turn completes iff its strategy is not medium and not a later hard call with something recorded, and when it completes player one is to move |
| Games.HardSecondCallRaises | src/cpu.py:218-231 | against a board with ships, the hard strategy's first call records the fleet and its second call raises, so it never fires |
| Games.CheckEndGame | src/game.py:168-181 | a lost board ends the game for the other side, player one's board is checked first, and otherwise nothing changes |
| Games.LostBoardEndsGame | src/game.py:168-181 | once player two's fleet is placed and fully hit, the game is over and the winner is one, unless player one's board is lost as well |
| Games.EndFrame | src/game.py:125-130 | without a CPU or on player one's turn the frame is the end check alone; otherwise the end check's verdict stands, player one is to move unless the CPU's move raised, and only the CPU, player one's board and the player to move change |
| Games.ResetGame | src/game.py:183-187 | a restart clears the winner and the end flag, shows the start screen and rebuilds both boards pristine, with no ships, the same ship count and an empty inventory; nothing else changes |
| Games.ResetGameNotOver | src/game.py:183-187 | a restarted game is over at once iff its ship count is zero |
| Games.ShortFleetNeverLoses | src/board.py:182-188 | a board whose fleet is short of its ship count is never lost |
| Playing.GridPosition | src/screens/playing.py:111-115 | the grid square is the one whose pixel span holds the point in each direction |
| Playing.GridPositionOfCell | src/screens/playing.py:111-115 | on a board drawn at the top, a click inside a cell maps to that cell's square |
| Playing.Expand | src/screens/playing.py:157-176 | the fired points in order: a nuke the click then (x, y+C), (x+C, y+C), (x+C, y), (x+C, y−C), (x, y−C), (x−C, y−C), (x−C, y), (x−C, y+C); a horizontal run the click then x+C, x+2C, x−C, x−2C; a vertical run likewise in y; any other selection the click alone |
| Playing.ExpandSquares | src/screens/playing.py:157-176 | each fired point lands in the clicked square moved by its step |
| Playing.NukeBlock | src/screens/playing.py:158-166 | a nuke fires once into each of the nine squares of the 3×3 block round the clicked square and nowhere else |
| Playing.RunLine | src/screens/playing.py:167-176 | a bombing run fires into five distinct squares of the clicked row or column, at most two away |
| Playing.FireAll | src/screens/playing.py:188-192 | one flag per point; ships never change; if no shot takes effect the board is unchanged |
| Playing.FireAllFlag | src/screens/playing.py:188-192 | flag i is set iff shot i, fired with its roll at the board the earlier shots left, takes effect |
| Playing.FireAllFlags | src/screens/playing.py:188-192 | the same for every flag of the salvo at once |
| Playing.FirstShotEffect | src/board.py:40-60 | on a laid-out board a shot takes effect iff its point lies in the square of a cell not hit yet |
| Playing.FireAllSound | src/screens/playing.py:188-192 | on a laid-out board a shot of a salvo takes effect only if one of the points lies in the square of a cell not hit before the salvo |
| Playing.FireAllComplete | src/screens/playing.py:188-192 | on a laid-out board, if one of the points lies in the square of a cell not hit before the salvo, some shot takes effect |
| Playing.FireAllEffect | src/screens/playing.py:188-192 | on a laid-out board some shot of a salvo takes effect iff one of its points lies in the square of a cell not hit before it |
| Playing.FireAllMarks | src/screens/playing.py:188-192 | after a salvo a cell is hit iff it was hit or one of the points lies in its square, whatever the order and rolls |
| Playing.FireOne | src/screens/playing.py:188-194 | a single point takes effect iff some cell of the board accepts it |
| Playing.WithTarget | src/screens/playing.py:145-148 | the shooter's board is never the one replaced |
| Playing.FireAt | src/screens/playing.py:188-196 | the points are fired in order at the board the current player targets, the shooter's own board and all other state are kept, and the flag is set iff some shot took effect |
| Playing.FireAtEffect | src/screens/playing.py:188-196 | on a laid-out target the flag is set iff one of the points lies in the square of a target cell not hit yet |
| Playing.Click | src/screens/playing.py:118-201 | with the highlight calls as display only: without the right to shoot nothing happens; a volley stores clicks and fires all four on the fourth; any other pattern fires at once, and shooting ends iff a shot took effect; the shooter's own board never changes |
| Playing.ClickAsWritten | src/screens/playing.py:118-201 | a click raises iff the player may shoot and the volley or radar is selected; every other click behaves as the intended handler |
| Playing.VolleyClickRaises | src/screens/playing.py:125-133 | the first volley click raises as written, where the intended handler only records the point |
| Playing.ClickKeepsVolley | src/screens/playing.py:125-154 | under the intended handler, between clicks the volley counter stays in 0..3 with one stored point per click |
| Playing.FourClickVolley | src/screens/playing.py:125-154 | under the intended handler, each of the first three volley clicks only records its point and leaves the game as it was; the fourth fires the four points in click order at the opponent, clears the volley and ends shooting |
| Playing.SingleShotEndsShooting | src/screens/playing.py:188-201 | a single shot ends shooting iff some cell accepts the click; when none does, the game is unchanged |
| Playing.ClickMarks | src/screens/playing.py:188-201 | under the intended handler, on a laid-out target a pattern shot leaves a target cell hit iff it was hit or a fired point lies in its square, and the player may shoot again iff no fired point lies in the square of a target cell not hit yet |
| Playing.TurnTimer | src/screens/playing.py:204-207 | the timer restores the right to shoot and shows the turn-transition screen, nothing else |
| Playing.UseSlot | src/screens/playing.py:217-226 | the key's test on a stocked slot selects that slot's shot, marks a powerup in use, empties just that slot and keeps everything else; otherwise nothing changes |
| Playing.KeyPress | src/screens/playing.py:209-272 | with no powerup in use, a key for a stocked slot of the opponent's inventory selects its shot and empties just that slot, the opponent's board otherwise kept whole; any other press changes nothing |
| Playing.OnePowerupPerTurn | src/screens/playing.py:209-220 | once a powerup is chosen, further key presses change nothing |
| Playing.KeyPressUsesOne | src/screens/playing.py:209-272 | a key press uses up at most one stocked powerup, and does so iff no powerup is in use and the key's slot is stocked |
| Transition.OtherPlayer | src/screens/turn_transition.py:28-29 | the next player is never the current one |
| Transition.OtherPlayerInvolution | src/screens/turn_transition.py:28-29 | handing over twice gives the move back |
| Transition.Continue | src/screens/turn_transition.py:35-39 | the other player moves, on the playing screen, with the single shot and no powerup in use; nothing else changes |
| Transition.ContinueSwapsTarget | src/screens/turn_transition.py:35-39 | after the hand-over the new player fires at the board the old player defended |
| Transition.RoundTrip | src/screens/turn_transition.py:35-39 | timer then continue leave the other player free to shoot a single shot; two exchanges give the move back |
| Transition.ContinueUnlocksPowerups | src/screens/turn_transition.py:35-39 | after the hand-over, a key for a stocked slot selects that powerup |

## Left out

- Drawing, overlays, messages, audio, event polling, `pygame.time.set_timer` pacing and the `Game.run` loop. The model keeps only the end-of-frame step (`Games.EndFrame`).
- `Board.placeShip` and `Board.spawnShip`: an interactive key loop. The confirm branch is `Boards.AcceptShip`.
- `src/ship.py` is not part of this model. A ship is a record of its coordinate list. `Ship(x, y, size, direction)` is taken to hold exactly the squares that `place_ships` checked.
- `CPU.medium_attack` beyond the point where it raises: its random draw and its targeted mode are not modelled, since the indexing with a coordinate pair stops it every time.
- The firing branch of `CPU.hard_attack` beyond the point where it raises: it indexes the grid with parts of a recorded coordinate list and calls `Cell.hit` without its board argument, so it is modelled only as raising.
- Randomness. Every draw is a parameter: the award rolls are `Roll` values (one per fired point), the CPU's ship draws are `Pick` values, and the easy strategy's target is a `Pos`.
- Floating point. The vertical offset (`SCREEN_HEIGHT / 2`) is an integer parameter. The award rolls are exact reals.
- The radar's message and the cell highlighting. `src/board.py` defines neither `Board.highlight_cells` nor `Board.reset_highlights`, which the click handler calls; the handler as written therefore raises (see Findings). Only `Cells.Highlight` is modelled.
- The game-mode and difficulty menus, which only set the mode and the difficulty string.
- The CPU's board and player two's board are one shared object in the source. In the model, `Cpu.board` is a copy that later shots do not update. The CPU never reads its own board after creating it.
- Opponent.CreateShips: the random source is a finite sequence of draws. When it runs dry before every ship is placed the fleet comes back short, where the source would go on drawing.
- Opponent.EasyAttack: the redraw loop is not modelled. The target is a parameter that is required to be unused and in range.
- Games.AiTurn: when every one of the 100 squares is recorded, the medium strategy's draw loop never ends instead of raising; both are modelled as the turn not completing.
- Playing.Click: models one mouse event at a time, with the highlight calls taken as display only. The radar's message is not modelled, and the radar's precondition asks only for the ships that message reads.
- Boards.CheckShipSunk: the source returns at the first ship that holds the key and is afloat. The model says some such ship exists, which is the same result.

## Findings

| source | as written | input that shows it | evidently intended | confidence | as-written member | corrected member |
|---|---|---|---|---|---|---|
| src/screens/playing.py:125-133 | a volley click calls `highlight_cells` on the target board, which `src/board.py` does not define, so it raises `AttributeError` before the point is stored | the first click of a turn while the player may shoot and Volley is selected | the highlight is display only: the volley stores the point and fires all four on the fourth click | high (not executed) | Playing.VolleyClickRaises | Playing.FourClickVolley |
| src/screens/playing.py:177-185 | a radar click calls `highlight_cells` on a board, which `src/board.py` does not define, so it raises `AttributeError` before the click is fired | any click while the player may shoot and Radar is selected | the highlight is display only: the radar click is fired as a single shot | high (not executed) | Playing.ClickAsWritten | Playing.Click |

=== FILE: board.dfy ===
/** A player's board: an N-by-N grid of cells, the ships placed on it, and
    the powerups its opponent has earned by shooting at it. */
module Boards {
  import opened Types
  import opened Cells

  /** A ship, reduced to the grid coordinates it covers. Orientation and
      movement belong to the interactive placement step, which is not
      modelled. */
  datatype Ship = Ship(coordinates: seq<Pos>)

  /** One flag per powerup, in the order Nuke, horizontal run, vertical run,
      Volley, Radar. */
  type Inventory = s: seq<bool> | |s| == 5 witness [false, false, false, false, false]

  const NoPowerups: Inventory := [false, false, false, false, false]

  /** `cells[y][x]` is the cell in column x of row y. */
  datatype Board = Board(cells: seq<seq<Cell>>, shipSize: int, ships: seq<Ship>, powerups: Inventory)

  /** The two uniform draws in [0, 1) the powerup award makes: whether a
      powerup is given at all, and which one. */
  datatype Roll = Roll(chance: real, pick: real)

  // ---------------------------------------------------------------------
  // Layout

  predicate InGrid(cells: seq<seq<Cell>>, y: int, x: int) {
    0 <= y < |cells| && 0 <= x < |cells[y]|
  }

  ghost predicate SameShape(a: seq<seq<Cell>>, b: seq<seq<Cell>>) {
    |a| == |b| && forall y :: 0 <= y < |a| ==> |a[y]| == |b[y]|
  }

  /** The grid is n by n and every cell sits at its own position. */
  ghost predicate Laid(cells: seq<seq<Cell>>, n: nat, offset: int, colSize: int) {
    && |cells| == n
    && (forall y :: 0 <= y < n ==> |cells[y]| == n)
    && forall y, x :: 0 <= y < n && 0 <= x < n ==> Placed(cells[y][x], x, y, offset, colSize)
  }

  ghost predicate CoordsInGrid(cells: seq<seq<Cell>>, coords: seq<Pos>) {
    forall c :: c in coords ==> InGrid(cells, c.y, c.x)
  }

  ghost predicate ShipInGrid(cells: seq<seq<Cell>>, s: Ship) {
    CoordsInGrid(cells, s.coordinates)
  }

  ghost predicate ShipsInGrid(b: Board) {
    forall i :: 0 <= i < |b.ships| ==> ShipInGrid(b.cells, b.ships[i])
  }

  /** A board as the game builds it: laid out at the given offset, every
      ship inside the grid. */
  ghost predicate WellFormed(b: Board, offset: int, colSize: int) {
    colSize > 0 && Laid(b.cells, |b.cells|, offset, colSize) && ShipsInGrid(b)
  }

  ghost predicate Pristine(c: Cell) {
    !c.isHit && !c.isActive && !c.hasShip && !c.isHighlighted
  }

  // ---------------------------------------------------------------------
  // Construction and the powerup inventory

  /** A fresh `size`-by-`size` board with no ships and no powerups. */
  function NewBoard(offset: int, size: nat, shipSize: int, colSize: int): (b: Board)
    ensures Laid(b.cells, size, offset, colSize)
    ensures forall y, x :: InGrid(b.cells, y, x) ==> Pristine(b.cells[y][x])
    ensures b.ships == [] && b.shipSize == shipSize && b.powerups == NoPowerups
  {
    Board(seq(size, y => seq(size, x => NewCell(x, y, offset, colSize))), shipSize, [], NoPowerups)
  }

  function GetPowerups(b: Board): Inventory {
    b.powerups
  }

  /** Replaces the inventory; reading it back gives the value written, and
      nothing else about the board changes. */
  function SetPowerups(b: Board, v: Inventory): (r: Board)
    ensures GetPowerups(r) == v
    ensures r.cells == b.cells && r.ships == b.ships && r.shipSize == b.shipSize
  {
    b.(powerups := v)
  }

  /** The slot the second draw selects. The guards for slots 1 and 2 repeat
      the `< 0.2` test of slot 0, so those slots are never chosen. */
  function AwardSlot(pick: real): (k: int)
    ensures 0 <= k < 5
    ensures k == 0 <==> pick < 0.2
    ensures k == 3 <==> 0.2 <= pick < 0.9
    ensures k == 4 <==> 0.9 <= pick
    ensures k != 1 && k != 2
  {
    if pick < 0.2 then 0
    else if pick < 0.2 then 1
    else if pick < 0.2 then 2
    else if pick < 0.9 then 3
    else 4
  }

  /** The powerup award. A flag already set stays set (the duplicate is
      wasted); the award never clears a flag and sets at most one. */
  function Award(inv: Inventory, roll: Roll): (r: Inventory)
    ensures forall i :: 0 <= i < 5 && inv[i] ==> r[i]
    ensures forall i :: 0 <= i < 5 && r[i] != inv[i] ==>
              roll.chance < 0.9 && i == AwardSlot(roll.pick)
    ensures roll.chance >= 0.9 ==> r == inv
    ensures roll.chance < 0.9 ==> r[AwardSlot(roll.pick)]
  {
    if roll.chance < 0.9 then
      var k := AwardSlot(roll.pick);
      if inv[k] == false then inv[k := true] else inv
    else
      inv
  }

  /** Awarding twice with the same draws is the same as awarding once. */
  lemma AwardIdempotent(inv: Inventory, roll: Roll)
    ensures Award(Award(inv, roll), roll) == Award(inv, roll)
  {
  }

  /** Slots 1 and 2 (the two bombing runs) can never be won. */
  lemma RunsNeverAwarded(inv: Inventory, roll: Roll)
    ensures Award(inv, roll)[1] == inv[1] && Award(inv, roll)[2] == inv[2]
  {
  }

  // ---------------------------------------------------------------------
  // Resolving a shot

  /** Row and column of a cell in the grid. */
  datatype Index = Index(row: nat, col: nat)

  /** (y, x) comes before `i` in row-by-row scan order. */
  predicate Before(y: int, x: int, i: Index) {
    y < i.row || (y == i.row && x < i.col)
  }

  /** The first column at or after `from` whose cell a shot at `p` would hit. */
  function FindInRow(row: seq<Cell>, p: Pos, from: nat): (r: Option<nat>)
    requires from <= |row|
    ensures r.Some? ==> from <= r.value < |row| && Accepts(row[r.value], p)
    ensures r.Some? ==> forall k :: from <= k < r.value ==> !Accepts(row[k], p)
    ensures r.None? ==> forall k :: from <= k < |row| ==> !Accepts(row[k], p)
    decreases |row| - from
  {
    if from == |row| then None
    else if Accepts(row[from], p) then Some(from)
    else FindInRow(row, p, from + 1)
  }

  /** The first cell, scanning rows from `from` on, that a shot at `p`
      would hit. */
  function FindCell(cells: seq<seq<Cell>>, p: Pos, from: nat): (r: Option<Index>)
    requires from <= |cells|
    ensures r.Some? ==> from <= r.value.row && InGrid(cells, r.value.row, r.value.col)
                        && Accepts(cells[r.value.row][r.value.col], p)
    ensures r.Some? ==> forall y, x :: from <= y && InGrid(cells, y, x) && Before(y, x, r.value)
                          ==> !Accepts(cells[y][x], p)
    ensures r.None? ==> forall y, x :: from <= y && InGrid(cells, y, x) ==> !Accepts(cells[y][x], p)
    decreases |cells| - from
  {
    if from == |cells| then None
    else
      match FindInRow(cells[from], p, 0)
      case Some(x) => Some(Index(from, x))
      case None => FindCell(cells, p, from + 1)
  }

  /** A board after a shot, and the cell the shot took effect on. */
  datatype Shot = Shot(board: Board, cell: Option<Cell>)

  /** Cell (y, x) differs between two grids of one shape. */
  ghost predicate Changed(a: seq<seq<Cell>>, b: seq<seq<Cell>>, y: int, x: int) {
    InGrid(a, y, x) && InGrid(b, y, x) && a[y][x] != b[y][x]
  }

  /** Shoots at pixel `p`: hits the first cell that accepts the shot and
      runs the powerup award for it, whether or not the cell holds a ship.
      With no such cell nothing changes. */
  function HitPos(b: Board, p: Pos, roll: Roll): (r: Shot)
    ensures r.cell.None? <==> forall y, x :: InGrid(b.cells, y, x) ==> !Accepts(b.cells[y][x], p)
    ensures r.cell.None? ==> r.board == b
    ensures r.cell.Some? ==> r.cell.value.isHit && r.board.powerups == Award(b.powerups, roll)
    ensures r.cell.Some? ==> exists y, x :: InGrid(b.cells, y, x) && InGrid(r.board.cells, y, x)
                               && Accepts(b.cells[y][x], p)
                               && r.board.cells[y][x] == b.cells[y][x].(isHit := true)
                               && r.cell.value == r.board.cells[y][x]
                               && forall y', x' :: InGrid(b.cells, y', x') && Before(y', x', Index(y, x))
                                                   ==> !Accepts(b.cells[y'][x'], p)
    ensures r.board.ships == b.ships && r.board.shipSize == b.shipSize
    ensures SameShape(b.cells, r.board.cells)
    ensures forall y, x :: Changed(b.cells, r.board.cells, y, x) ==>
              Accepts(b.cells[y][x], p) && r.board.cells[y][x] == b.cells[y][x].(isHit := true)
    ensures forall y, x, y', x' ::
              Changed(b.cells, r.board.cells, y, x) && Changed(b.cells, r.board.cells, y', x')
              ==> y == y' && x == x'
  {
    match FindCell(b.cells, p, 0)
    case None => Shot(b, None)
    case Some(i) =>
      var c := Hit(b.cells[i.row][i.col], p).cell;
      var cells := b.cells[i.row := b.cells[i.row][i.col := c]];
      assert cells[i.row][i.col] == c;
      Shot(b.(cells := cells, powerups := Award(b.powerups, roll)), Some(c))
  }

  /** A shot changes only hit flags, so the layout survives it. */
  lemma HitPosKeepsLayout(b: Board, p: Pos, roll: Roll, offset: int, colSize: int)
    requires WellFormed(b, offset, colSize)
    ensures WellFormed(HitPos(b, p, roll).board, offset, colSize)
  {
    var b' := HitPos(b, p, roll).board;
    var n := |b.cells|;
    forall y, x | 0 <= y < n && 0 <= x < n
      ensures Placed(b'.cells[y][x], x, y, offset, colSize)
    {
      assert InGrid(b.cells, y, x);
      if Changed(b.cells, b'.cells, y, x) {
        assert b'.cells[y][x] == b.cells[y][x].(isHit := true);
      }
    }
  }

  /** On a well-formed board the cell a shot hits is the one whose square
      holds the point: its coordinate is the point's floor quotient, margins
      and offset removed. */
  lemma HitPosLocates(b: Board, p: Pos, roll: Roll, offset: int, colSize: int)
    requires WellFormed(b, offset, colSize)
    ensures var r := HitPos(b, p, roll);
            r.cell.Some? ==> r.cell.value.coordinate == Pos((p.x - 3) / colSize, (p.y - 3 - offset) / colSize)
                             && Contains(r.cell.value.rect, p)
  {
    var r := HitPos(b, p, roll);
    if r.cell.Some? {
      var y, x :| InGrid(b.cells, y, x) && Accepts(b.cells[y][x], p)
                  && r.board.cells[y][x] == b.cells[y][x].(isHit := true)
                  && r.cell.value == r.board.cells[y][x];
      ContainsLocates(x, y, offset, colSize, p);
    }
  }

  /** Shooting twice at the same point of a well-formed board: the second
      shot hits nothing and changes nothing, whatever the draws. */
  lemma {:induction false} HitPosTwice(b: Board, p: Pos, r1: Roll, r2: Roll, offset: int, colSize: int)
    requires WellFormed(b, offset, colSize)
    ensures var b1 := HitPos(b, p, r1).board;
            HitPos(b1, p, r2).cell.None? && HitPos(b1, p, r2).board == b1
  {
    var first := HitPos(b, p, r1);
    var b1 := first.board;
    if first.cell.Some? {
      var y, x :| InGrid(b.cells, y, x) && Accepts(b.cells[y][x], p)
                  && b1.cells[y][x] == b.cells[y][x].(isHit := true)
                  && first.cell.value == b1.cells[y][x];
      forall y', x' | InGrid(b1.cells, y', x')
        ensures !Accepts(b1.cells[y'][x'], p)
      {
        if (y', x') != (y, x) && Accepts(b1.cells[y'][x'], p) {
          assert !Changed(b.cells, b1.cells, y', x');
          CellsDisjoint(b.cells[y][x], b.cells[y'][x'], x, y, x', y', offset, colSize, p);
        }
      }
    }
  }

  /** On a well-formed board a shot leaves a cell hit exactly when it was
      hit before or its square holds the point. */
  lemma HitPosMarks(b: Board, p: Pos, roll: Roll, offset: int, colSize: int)
    requires WellFormed(b, offset, colSize)
    ensures var b' := HitPos(b, p, roll).board;
            forall y, x :: InGrid(b.cells, y, x) ==>
              (b'.cells[y][x].isHit <==> b.cells[y][x].isHit || Contains(CellRect(x, y, offset, colSize), p))
  {
    var r := HitPos(b, p, roll);
    forall y, x | InGrid(b.cells, y, x)
      ensures r.board.cells[y][x].isHit <==> b.cells[y][x].isHit || Contains(CellRect(x, y, offset, colSize), p)
    {
      assert Placed(b.cells[y][x], x, y, offset, colSize);
      if !Changed(b.cells, r.board.cells, y, x) && Accepts(b.cells[y][x], p) {
        var y', x' :| InGrid(b.cells, y', x') && InGrid(r.board.cells, y', x')
                      && Accepts(b.cells[y'][x'], p)
                      && r.board.cells[y'][x'] == b.cells[y'][x'].(isHit := true)
                      && r.cell.value == r.board.cells[y'][x'];
        CellsDisjoint(b.cells[y][x], b.cells[y'][x'], x, y, x', y', offset, colSize, p);
      }
    }
  }

  // ---------------------------------------------------------------------
  // Ship placement

  function CoordSet(s: Ship): set<Pos> {
    set c | c in s.coordinates
  }

  /** Every coordinate some ship covers. */
  ghost function Occupied(ships: seq<Ship>): set<Pos> {
    set i, c | 0 <= i < |ships| && c in ships[i].coordinates :: c
  }

  ghost predicate ShipsDisjoint(ships: seq<Ship>) {
    forall i, j :: 0 <= i < |ships| && 0 <= j < |ships| && i != j ==> CoordSet(ships[i]) !! CoordSet(ships[j])
  }

  /** `s` shares no coordinate with any of `ships`. */
  function ClearOf(ships: seq<Ship>, s: Ship): (ok: bool)
    ensures ok <==> forall i :: 0 <= i < |ships| ==> CoordSet(s) !! CoordSet(ships[i])
  {
    if ships == [] then true
    else if !(CoordSet(s) !! CoordSet(ships[0])) then false
    else
      assert forall i :: 1 <= i < |ships| ==> ships[i] == ships[1..][i - 1];
      ClearOf(ships[1..], s)
  }

  /** A new ship may go where no placed ship already is. The grid bounds
      are not checked here. */
  function IsValidShipLocation(b: Board, s: Ship): (ok: bool)
    ensures ok <==> CoordSet(s) !! Occupied(b.ships)
  {
    OccupiedDisjoint(b.ships, s);
    ClearOf(b.ships, s)
  }

  /** Missing every ship is missing their union. */
  lemma OccupiedDisjoint(ships: seq<Ship>, s: Ship)
    ensures (forall i :: 0 <= i < |ships| ==> CoordSet(s) !! CoordSet(ships[i]))
            <==> CoordSet(s) !! Occupied(ships)
  {
    if exists i :: 0 <= i < |ships| && !(CoordSet(s) !! CoordSet(ships[i])) {
      var i :| 0 <= i < |ships| && !(CoordSet(s) !! CoordSet(ships[i]));
      var c :| c in CoordSet(s) && c in CoordSet(ships[i]);
      assert c in Occupied(ships);
    }
  }

  function ResetRow(row: seq<Cell>): (r: seq<Cell>)
    ensures |r| == |row|
    ensures forall x :: 0 <= x < |row| ==> r[x] == row[x].(isActive := false)
  {
    if row == [] then [] else [row[0].(isActive := false)] + ResetRow(row[1..])
  }

  function ResetRows(rows: seq<seq<Cell>>): (r: seq<seq<Cell>>)
    ensures SameShape(rows, r)
    ensures forall y, x :: InGrid(rows, y, x) ==> r[y][x] == rows[y][x].(isActive := false)
  {
    if rows == [] then [] else [ResetRow(rows[0])] + ResetRows(rows[1..])
  }

  /** Clears the placement preview flag on every cell and nothing else. */
  function ResetCells(b: Board): (r: Board)
    ensures r.ships == b.ships && r.shipSize == b.shipSize && r.powerups == b.powerups
    ensures SameShape(b.cells, r.cells)
    ensures forall y, x :: InGrid(b.cells, y, x) ==> r.cells[y][x] == b.cells[y][x].(isActive := false)
  {
    b.(cells := ResetRows(b.cells))
  }

  /** Sets `hasShip` on the cells at `coords`, one at a time. */
  function MarkCells(cells: seq<seq<Cell>>, coords: seq<Pos>): (r: seq<seq<Cell>>)
    requires CoordsInGrid(cells, coords)
    ensures SameShape(cells, r)
    ensures forall y, x :: InGrid(cells, y, x) ==>
              r[y][x] == cells[y][x].(hasShip := cells[y][x].hasShip || Pos(x, y) in coords)
    decreases |coords|
  {
    if coords == [] then cells
    else
      var c := coords[0];
      assert InGrid(cells, c.y, c.x);
      var marked := cells[c.y := cells[c.y][c.x := cells[c.y][c.x].(hasShip := true)]];
      assert SameShape(cells, marked);
      assert CoordsInGrid(marked, coords[1..]) by {
        forall d | d in coords[1..] ensures InGrid(marked, d.y, d.x) {
          assert d in coords && InGrid(cells, d.y, d.x);
        }
      }
      var r := MarkCells(marked, coords[1..]);
      assert forall y, x :: InGrid(cells, y, x) ==>
               r[y][x] == cells[y][x].(hasShip := cells[y][x].hasShip || Pos(x, y) in coords) by {
        forall y, x | InGrid(cells, y, x)
          ensures r[y][x] == cells[y][x].(hasShip := cells[y][x].hasShip || Pos(x, y) in coords)
        {
          assert InGrid(marked, y, x);
          assert Pos(x, y) in coords <==> Pos(x, y) == c || Pos(x, y) in coords[1..];
          if y == c.y && x == c.x {
            assert marked[y][x] == cells[y][x].(hasShip := true);
          } else {
            assert marked[y][x] == cells[y][x];
          }
        }
      }
      r
  }

  /** Marks the cells a ship covers; every other field of every cell, and
      every other cell, is left as it was. */
  function MarkShipCells(b: Board, s: Ship): (r: Board)
    requires ShipInGrid(b.cells, s)
    ensures r.ships == b.ships && r.shipSize == b.shipSize && r.powerups == b.powerups
    ensures SameShape(b.cells, r.cells)
    ensures forall y, x :: InGrid(b.cells, y, x) ==>
              r.cells[y][x] == b.cells[y][x].(hasShip := b.cells[y][x].hasShip || Pos(x, y) in CoordSet(s))
  {
    b.(cells := MarkCells(b.cells, s.coordinates))
  }

  /** Every cell is marked exactly when some ship covers it. */
  ghost predicate ShipCellsMatch(b: Board) {
    forall y, x :: InGrid(b.cells, y, x) ==> (b.cells[y][x].hasShip <==> Pos(x, y) in Occupied(b.ships))
  }

  /** The confirm step of interactive placement: a ship at a valid
      location is appended to the ship list and its cells are marked. */
  function AcceptShip(b: Board, s: Ship): (r: Option<Board>)
    requires ShipInGrid(b.cells, s)
    ensures r.Some? <==> CoordSet(s) !! Occupied(b.ships)
    ensures r.Some? ==> r.value.ships == b.ships + [s]
    ensures r.Some? ==> r.value.shipSize == b.shipSize && r.value.powerups == b.powerups
    ensures r.Some? ==> SameShape(b.cells, r.value.cells)
    ensures r.Some? ==> forall y, x :: InGrid(b.cells, y, x) ==>
              r.value.cells[y][x] == b.cells[y][x].(hasShip := b.cells[y][x].hasShip || Pos(x, y) in CoordSet(s))
  {
    if IsValidShipLocation(b, s) then
      Some(MarkShipCells(b.(ships := b.ships + [s]), s))
    else
      None
  }

  /** Accepting ships keeps them pairwise disjoint and keeps the marked
      cells equal to the cells the ships cover. */
  lemma AcceptShipKeepsFleet(b: Board, s: Ship)
    requires ShipInGrid(b.cells, s)
    requires ShipsDisjoint(b.ships) && ShipCellsMatch(b)
    ensures var r := AcceptShip(b, s);
            r.Some? ==> ShipsDisjoint(r.value.ships) && ShipCellsMatch(r.value)
  {
    var r := AcceptShip(b, s);
    if r.Some? {
      var ships := b.ships + [s];
      forall i | 0 <= i < |b.ships|
        ensures CoordSet(s) !! CoordSet(b.ships[i])
      {
        forall c | c in CoordSet(b.ships[i]) ensures c in Occupied(b.ships) {
        }
      }
      OccupiedAppend(b.ships, s);
    }
  }

  /** Appending a ship adds exactly its coordinates to the occupied set. */
  lemma OccupiedAppend(ships: seq<Ship>, s: Ship)
    ensures Occupied(ships + [s]) == Occupied(ships) + CoordSet(s)
  {
    var all := ships + [s];
    forall c | c in Occupied(all) ensures c in Occupied(ships) + CoordSet(s) {
      var i :| 0 <= i < |all| && c in all[i].coordinates;
      if i < |ships| {
        assert all[i] == ships[i];
      }
    }
    forall c | c in Occupied(ships) + CoordSet(s) ensures c in Occupied(all) {
      if c in CoordSet(s) {
        assert all[|ships|] == s;
      } else {
        var i :| 0 <= i < |ships| && c in ships[i].coordinates;
        assert all[i] == ships[i];
      }
    }
  }

  // ---------------------------------------------------------------------
  // Sinking and the end of the game

  function AllHit(cells: seq<seq<Cell>>, coords: seq<Pos>): (r: bool)
    requires CoordsInGrid(cells, coords)
    ensures r <==> forall c :: c in coords ==> cells[c.y][c.x].isHit
  {
    if coords == [] then true
    else if (assert InGrid(cells, coords[0].y, coords[0].x); !cells[coords[0].y][coords[0].x].isHit) then false
    else AllHit(cells, coords[1..])
  }

  /** A ship is sunk when every cell it covers has been hit. */
  function IsShipSunk(b: Board, s: Ship): (r: bool)
    requires ShipInGrid(b.cells, s)
    ensures r <==> forall c :: c in s.coordinates ==> b.cells[c.y][c.x].isHit
  {
    AllHit(b.cells, s.coordinates)
  }

  function EverySunk(b: Board, from: nat): (r: bool)
    requires from <= |b.ships| && ShipsInGrid(b)
    ensures r <==> forall i, c :: from <= i < |b.ships| && c in b.ships[i].coordinates ==> b.cells[c.y][c.x].isHit
    decreases |b.ships| - from
  {
    if from == |b.ships| then true
    else if !IsShipSunk(b, b.ships[from]) then false
    else EverySunk(b, from + 1)
  }

  /** The board is lost once all its ships are placed and every cell they
      cover is hit. Before the last ship is placed it is never lost. */
  function AllShipsSunk(b: Board): (r: bool)
    requires ShipsInGrid(b)
    ensures r <==> |b.ships| == b.shipSize
                   && forall i, c :: 0 <= i < |b.ships| && c in b.ships[i].coordinates ==> b.cells[c.y][c.x].isHit
  {
    if |b.ships| == b.shipSize then EverySunk(b, 0) else false
  }

  /** The grid square the sunk check reads off a cell: its pixel corner
      divided by the square size. */
  function SunkKey(c: Cell, colSize: int): Pos
    requires colSize > 0
  {
    Pos(c.rect.left / colSize, c.rect.top / colSize)
  }

  function AfloatFrom(b: Board, key: Pos, from: nat): (r: bool)
    requires from <= |b.ships| && ShipsInGrid(b)
    ensures r <==> exists i, d :: from <= i < |b.ships| && key in b.ships[i].coordinates
                                  && d in b.ships[i].coordinates && !b.cells[d.y][d.x].isHit
    decreases |b.ships| - from
  {
    if from == |b.ships| then false
    else if key in b.ships[from].coordinates && !IsShipSunk(b, b.ships[from]) then true
    else AfloatFrom(b, key, from + 1)
  }

  /** The source's "ship sunk" check, as written: true when some ship
      covering the cell's square still has an unhit cell, so it answers
      whether the ship is still afloat. */
  function CheckShipSunk(b: Board, c: Cell, colSize: int): (r: bool)
    requires colSize > 0 && ShipsInGrid(b)
    ensures r <==> exists i, d :: 0 <= i < |b.ships| && SunkKey(c, colSize) in b.ships[i].coordinates
                                  && d in b.ships[i].coordinates && !b.cells[d.y][d.x].isHit
  {
    AfloatFrom(b, SunkKey(c, colSize), 0)
  }

  /** The square the sunk check reads is the cell's own row and column
      shifted by the whole squares that the margin and the offset span.
      It is the cell's coordinate exactly when the margin is less than one
      square and margin plus offset lies within the first square. */
  lemma SunkKeyOfPlaced(c: Cell, x: int, y: int, offset: int, colSize: int)
    requires colSize > 0 && Placed(c, x, y, offset, colSize)
    ensures SunkKey(c, colSize) == Pos(x + 3 / colSize, y + (3 + offset) / colSize)
    ensures SunkKey(c, colSize) == c.coordinate <==> colSize > 3 && 0 <= 3 + offset < colSize
  {
    FloorDivShift(3, x, colSize);
    FloorDivShift(3 + offset, y, colSize);
    if colSize > 3 && 0 <= 3 + offset < colSize {
      FloorDivUnique(3, 0, colSize);
      FloorDivUnique(3 + offset, 0, colSize);
    }
    if 3 / colSize == 0 {
      assert 3 == colSize * (3 / colSize) + 3 % colSize;
    }
    if (3 + offset) / colSize == 0 {
      assert 3 + offset == colSize * ((3 + offset) / colSize) + (3 + offset) % colSize;
    }
    assert x * colSize + 3 == 3 + x * colSize;
    assert y * colSize + 3 + offset == 3 + offset + y * colSize;
  }

  /** With the sunk check reading the cell's own square: on a square no
      ship covers it is false, and on a square ship `i` covers it is true
      exactly when ship `i` is NOT sunk. */
  lemma CheckShipSunkIsInverted(b: Board, y: int, x: int, offset: int, colSize: int)
    requires WellFormed(b, offset, colSize) && ShipsDisjoint(b.ships)
    requires colSize > 3 && 0 <= 3 + offset < colSize
    requires InGrid(b.cells, y, x)
    ensures Pos(x, y) !in Occupied(b.ships) ==> !CheckShipSunk(b, b.cells[y][x], colSize)
    ensures forall i :: 0 <= i < |b.ships| && Pos(x, y) in b.ships[i].coordinates ==>
              (CheckShipSunk(b, b.cells[y][x], colSize) <==> !IsShipSunk(b, b.ships[i]))
  {
    var c := b.cells[y][x];
    SunkKeyOfPlaced(c, x, y, offset, colSize);
    assert SunkKey(c, colSize) == Pos(x, y);
    forall i | 0 <= i < |b.ships| && Pos(x, y) in b.ships[i].coordinates
      ensures CheckShipSunk(b, c, colSize) <==> !IsShipSunk(b, b.ships[i])
    {
      assert Pos(x, y) in CoordSet(b.ships[i]);
    }
  }
}

=== FILE: cell.dfy ===
/** One square of a board: its flags, its pixel rectangle, and the one-way
    hit transition. */
module Cells {
  import opened Types

  /** A screen rectangle: left/top corner and extent, in pixels. */
  datatype Rect = Rect(left: int, top: int, width: int, height: int)

  /** The rectangle's point test. The left and top edges belong to the
      rectangle; the right and bottom edges do not. */
  predicate Contains(r: Rect, p: Pos) {
    r.left <= p.x < r.left + r.width && r.top <= p.y < r.top + r.height
  }

  /** A grid cell. `coordinate` is its (column, row); `rect` is where it is
      drawn, `offset` pixels down when two boards are stacked. The pixel `x`
      and `y` fields of the source are `rect.left` and `rect.top`. */
  datatype Cell = Cell(
    coordinate: Pos,
    isHit: bool,
    isActive: bool,
    hasShip: bool,
    isHighlighted: bool,
    visible: bool,
    rect: Rect,
    offset: int)

  /** Where the cell at (x, y) sits on screen: a 3-pixel margin inside its
      grid square, and 7 pixels narrower than the square in each direction. */
  function CellRect(x: int, y: int, offset: int, colSize: int): Rect {
    Rect(x * colSize + 3, y * colSize + 3 + offset, colSize - 7, colSize - 7)
  }

  /** The cell at grid position (x, y) is drawn at `CellRect(x, y, ...)`. */
  ghost predicate Placed(c: Cell, x: int, y: int, offset: int, colSize: int) {
    c.coordinate == Pos(x, y) && c.rect == CellRect(x, y, offset, colSize)
  }

  /** A new cell: all state flags down, drawn at its grid position. */
  function NewCell(x: int, y: int, offset: int, colSize: int): (c: Cell)
    ensures !c.isHit && !c.isActive && !c.hasShip && !c.isHighlighted
    ensures Placed(c, x, y, offset, colSize)
    ensures c.offset == offset
  {
    Cell(Pos(x, y), false, false, false, false, true,
         CellRect(x, y, offset, colSize), offset)
  }

  /** A shot at `p` takes effect on `c`: the point is inside and the cell
      has not been hit before. */
  predicate Accepts(c: Cell, p: Pos) {
    Contains(c.rect, p) && !c.isHit
  }

  /** The cell after a shot, and whether the shot took effect. */
  datatype HitResult = HitResult(cell: Cell, hit: bool)

  /** Shoots at pixel `p`. The sunk check the source runs on a fresh ship hit
      only plays a sound; its result is discarded, so the model leaves it out. */
  function Hit(c: Cell, p: Pos): (r: HitResult)
    ensures r.hit <==> Contains(c.rect, p) && !c.isHit
    ensures r.cell.isHit
      <==> c.isHit || Contains(c.rect, p)
    ensures r.cell == c.(isHit := r.cell.isHit)
  {
    var inside := Contains(c.rect, p);
    if inside && !c.isHit then
      HitResult(c.(isHit := true), true)
    else
      HitResult(c, false)
  }

  /** Sets the cosmetic highlight flag. */
  function Highlight(c: Cell, on: bool): (r: Cell)
    ensures r.isHighlighted == on
    ensures r.(isHighlighted := c.isHighlighted) == c
  {
    c.(isHighlighted := on)
  }

  /** A cell, once hit, stays hit whatever point is shot at next. */
  lemma HitIsMonotone(c: Cell, p: Pos)
    requires c.isHit
    ensures Hit(c, p).cell.isHit
    ensures !Hit(c, p).hit
    ensures Hit(c, p).cell == c
  {
  }

  /** Shooting twice at the same point: the second shot takes no effect and
      changes nothing. */
  lemma HitTwice(c: Cell, p: Pos)
    ensures var first := Hit(c, p);
            !Hit(first.cell, p).hit && Hit(first.cell, p).cell == first.cell
  {
  }

  /** Where a point can lie: inside the cell at (x, y) only if (x, y) is
      the floor quotient of the point, margins removed, by the square size. */
  lemma ContainsLocates(x: int, y: int, offset: int, colSize: int, p: Pos)
    requires colSize > 0
    requires Contains(CellRect(x, y, offset, colSize), p)
    ensures (p.x - 3) / colSize == x
    ensures (p.y - 3 - offset) / colSize == y
  {
    FloorDivUnique(p.x - 3, x, colSize);
    FloorDivUnique(p.y - 3 - offset, y, colSize);
  }

  /** Two cells laid out on one board never share a point unless they are
      at the same grid position. */
  lemma CellsDisjoint(c: Cell, d: Cell, x: int, y: int, x': int, y': int,
                      offset: int, colSize: int, p: Pos)
    requires colSize > 0
    requires Placed(c, x, y, offset, colSize) && Placed(d, x', y', offset, colSize)
    requires Contains(c.rect, p) && Contains(d.rect, p)
    ensures x == x' && y == y'
  {
    ContainsLocates(x, y, offset, colSize, p);
    ContainsLocates(x', y', offset, colSize, p);
  }

  /** A cell never contains the point named by its own grid coordinate:
      a grid coordinate read as a pixel lies left of or above the cell. */
  lemma OwnCoordinateOutside(x: int, y: int, offset: int, colSize: int)
    requires x >= 0 && y >= 0 && offset >= 0 && colSize >= 1
    ensures !Contains(CellRect(x, y, offset, colSize), Pos(x, y))
  {
    assert x * (colSize - 1) >= 0;
  }
}

=== FILE: cpu.dfy ===
/** The computer opponent: random fleet generation, the shot record, the
    easy strategy's shot, and the hard strategy's opening move. */
module Opponent {
  import opened Types
  import opened Cells
  import opened Boards

  /** An entry of the CPU's `hits` list. The easy strategy records single
      coordinates there; the hard strategy's opening move stores whole
      coordinate lists of the opposing ships in the same list. */
  datatype Entry = At(pos: Pos) | Fleet(coords: seq<Pos>)

  /** The CPU's state: its fleet, the shots it has recorded, the ships it
      believes it has sunk, and its own board. */
  datatype Cpu = Cpu(ships: seq<Ship>, hits: seq<Entry>, miss: seq<Pos>, shipsSunk: int, board: Board)

  /** The three random draws behind one generated ship: direction
      (0 = vertical, otherwise horizontal) and head column and row. */
  datatype Pick = Pick(direction: int, x: int, y: int)

  /** What the random source can produce: a direction in 0..1, a head in 0..9. */
  predicate ValidPick(p: Pick) {
    0 <= p.direction <= 1 && 0 <= p.x <= 9 && 0 <= p.y <= 9
  }

  /** A head whose ship would run past index 9 moves back by the ship's length. */
  function Clamp(head: int, size: int): int {
    if head + size > 9 then head - size else head
  }

  /** The coordinates of a generated ship: `size` consecutive squares along
      the drawn axis, starting at the drawn head unless the ship would run
      past index 9, in which case the head moves back by the ship's length;
      the other coordinate is held at the drawn head. */
  function ShipCoords(size: nat, pick: Pick): (cs: seq<Pos>)
    ensures |cs| == size
    ensures size > 0 && pick.direction == 0 ==>
              cs[0] == Pos(pick.x, if pick.y + size > 9 then pick.y - size else pick.y)
    ensures size > 0 && pick.direction != 0 ==>
              cs[0] == Pos(if pick.x + size > 9 then pick.x - size else pick.x, pick.y)
    ensures pick.direction == 0 ==>
              forall i :: 0 <= i < size ==> cs[i].x == pick.x && (i > 0 ==> cs[i].y == cs[i - 1].y + 1)
    ensures pick.direction != 0 ==>
              forall i :: 0 <= i < size ==> cs[i].y == pick.y && (i > 0 ==> cs[i].x == cs[i - 1].x + 1)
  {
    if pick.direction == 0 then
      var top := Clamp(pick.y, size);
      seq(size, i => Pos(pick.x, top + i))
    else
      var left := Clamp(pick.x, size);
      seq(size, i => Pos(left + i, pick.y))
  }

  /** For the five ship lengths, the clamp keeps every square of a generated
      ship on the grid: the coordinate along the ship in 0..8, the other
      coordinate in 0..9. */
  lemma ShipCoordsInRange(size: nat, pick: Pick)
    requires 1 <= size <= 5 && ValidPick(pick)
    ensures forall c :: c in ShipCoords(size, pick) ==>
              if pick.direction == 0 then 0 <= c.y <= 8 && 0 <= c.x <= 9
              else 0 <= c.x <= 8 && 0 <= c.y <= 9
  {
  }

  /** The scan over a new ship's coordinates: is one of them in use? */
  function AnyUsed(cs: seq<Pos>, used: seq<Pos>): (found: bool)
    ensures found <==> exists c :: c in cs && c in used
  {
    if cs == [] then false
    else if cs[0] in used then true
    else
      assert forall c :: c in cs[1..] ==> c in cs;
      assert forall c :: c in cs && c != cs[0] ==> c in cs[1..];
      AnyUsed(cs[1..], used)
  }

  /** One generation attempt: the ship, or nothing when one of its squares
      is already used. */
  function PlaceShip(size: nat, used: seq<Pos>, pick: Pick): (r: Option<Ship>)
    ensures r.None? <==> exists c :: c in ShipCoords(size, pick) && c in used
    ensures r.Some? ==> r.value.coordinates == ShipCoords(size, pick)
  {
    var cs := ShipCoords(size, pick);
    if AnyUsed(cs, used) then None else Some(Ship(cs))
  }

  /** The ship the i-th pick generates: ship i has length i + 1. */
  function PickedShip(picks: seq<Pick>, i: nat): Ship
    requires i < |picks|
  {
    Ship(ShipCoords(i + 1, picks[i]))
  }

  /** Every draw is one the random source can make. */
  ghost predicate ValidDraws(draws: seq<Pick>) {
    forall k :: 0 <= k < |draws| ==> ValidPick(draws[k])
  }

  /** The first n picks generate pairwise disjoint ships, so every ship is
      accepted at its first attempt. */
  ghost predicate PicksDisjoint(picks: seq<Pick>, n: nat) {
    n <= |picks| &&
    forall i, j :: 0 <= i < j < n ==> CoordSet(PickedShip(picks, i)) !! CoordSet(PickedShip(picks, j))
  }

  /** The grid holds at least the 10-by-10 squares the CPU draws from. */
  ghost predicate CoversTen(cells: seq<seq<Cell>>) {
    |cells| >= 10 && forall y :: 0 <= y < 10 ==> |cells[y]| >= 10
  }

  /** Ship k (of length k + 1) is what one of the first `spent` draws generates. */
  ghost predicate FromDraw(draws: seq<Pick>, spent: nat, k: nat, s: Ship) {
    exists j :: 0 <= j < spent && j < |draws| && s.coordinates == ShipCoords(k + 1, draws[j])
  }

  /** Generates the fleet from a stream of random draws: ships of lengths
      1..n in that order, each marked on the board as it is accepted. Each
      pass of the loop is one attempt for the next length and uses up one
      draw; a rejected attempt is followed by another for the same length.
      `spent` counts the draws used. A stream that runs dry before n ships
      are placed leaves the fleet short. */
  method CreateShips(board: Board, n: nat, draws: seq<Pick>) returns (b: Board, ships: seq<Ship>, spent: nat)
    requires n <= 5 && ValidDraws(draws)
    requires CoversTen(board.cells)
    ensures |ships| <= n && spent <= |draws|
    ensures |ships| < n ==> spent == |draws|
    ensures forall k :: 0 <= k < |ships| ==> |ships[k].coordinates| == k + 1 && FromDraw(draws, spent, k, ships[k])
    ensures ShipsDisjoint(ships)
    ensures forall k :: 0 <= k < |ships| ==> ShipInGrid(board.cells, ships[k])
    ensures b.ships == board.ships && b.shipSize == board.shipSize && b.powerups == board.powerups
    ensures SameShape(board.cells, b.cells)
    ensures forall y, x :: InGrid(board.cells, y, x) ==>
              b.cells[y][x] == board.cells[y][x].(hasShip := board.cells[y][x].hasShip || Pos(x, y) in Occupied(ships))
    ensures PicksDisjoint(draws, n) ==>
              spent == n && |ships| == n && forall k :: 0 <= k < n ==> ships[k] == PickedShip(draws, k)
  {
    var used: seq<Pos> := [];
    ships := [];
    b := board;
    spent := 0;
    while |ships| < n && spent < |draws|
      invariant |ships| <= n
      invariant Progress(board, b, draws, spent, ships, used)
      invariant OnSchedule(draws, n, spent, ships)
      decreases |draws| - spent
    {
      var placed := PlaceShip(|ships| + 1, used, draws[spent]);
      Step(board, b, draws, n, spent, ships, used);
      if placed.Some? {
        var s := placed.value;
        b := MarkShipCells(b, s);
        ships := ships + [s];
        used := used + s.coordinates;
      }
      spent := spent + 1;
    }
    Finish(board, b, draws, n, spent, ships, used);
  }

  /** When the loop stops, what it has established is the fleet the
      generation promises. */
  lemma Finish(board: Board, b: Board, draws: seq<Pick>, n: nat, spent: nat, ships: seq<Ship>, used: seq<Pos>)
    requires |ships| <= n && !(|ships| < n && spent < |draws|)
    requires Progress(board, b, draws, spent, ships, used) && OnSchedule(draws, n, spent, ships)
    ensures |ships| < n ==> spent == |draws|
    ensures forall k :: 0 <= k < |ships| ==> |ships[k].coordinates| == k + 1 && FromDraw(draws, spent, k, ships[k])
    ensures ShipsDisjoint(ships)
    ensures forall k :: 0 <= k < |ships| ==> ShipInGrid(board.cells, ships[k])
    ensures b.ships == board.ships && b.shipSize == board.shipSize && b.powerups == board.powerups
    ensures SameShape(board.cells, b.cells)
    ensures forall y, x :: InGrid(board.cells, y, x) ==>
              b.cells[y][x] == board.cells[y][x].(hasShip := board.cells[y][x].hasShip || Pos(x, y) in Occupied(ships))
    ensures PicksDisjoint(draws, n) ==>
              spent == n && |ships| == n && forall k :: 0 <= k < n ==> ships[k] == PickedShip(draws, k)
  {
  }

  /** What the generation loop has established after `spent` draws placed
      `ships`: ship k has length k + 1 and comes from one of those draws; the
      ships are pairwise disjoint and on the grid; `used` holds exactly their
      squares; `b` is `board` with their squares marked. */
  ghost predicate Progress(board: Board, b: Board, draws: seq<Pick>, spent: nat, ships: seq<Ship>, used: seq<Pos>) {
    && spent <= |draws|
    && (forall k :: 0 <= k < |ships| ==> |ships[k].coordinates| == k + 1 && FromDraw(draws, spent, k, ships[k]))
    && (forall c :: c in used <==> c in Occupied(ships))
    && (forall k :: 0 <= k < |ships| ==> ShipInGrid(board.cells, ships[k]))
    && ShipsDisjoint(ships)
    && b.ships == board.ships && b.shipSize == board.shipSize && b.powerups == board.powerups
    && MarkedFor(board, b, ships)
  }

  /** When the first n draws are disjoint, every draw so far was accepted
      at its first attempt: ship k is the one draw k generates. */
  ghost predicate OnSchedule(draws: seq<Pick>, n: nat, spent: nat, ships: seq<Ship>) {
    PicksDisjoint(draws, n) ==>
      && spent == |ships| && |ships| <= |draws|
      && forall k :: 0 <= k < |ships| ==> ships[k] == PickedShip(draws, k)
  }

  /** One pass of the generation loop keeps what the loop establishes,
      whether the attempt is accepted or rejected. */
  lemma Step(board: Board, b: Board, draws: seq<Pick>, n: nat, spent: nat, ships: seq<Ship>, used: seq<Pos>)
    requires n <= 5 && ValidDraws(draws) && CoversTen(board.cells)
    requires |ships| < n && spent < |draws|
    requires Progress(board, b, draws, spent, ships, used) && OnSchedule(draws, n, spent, ships)
    ensures var placed := PlaceShip(|ships| + 1, used, draws[spent]);
            && (placed.Some? ==>
                  var s := placed.value;
                  && ShipInGrid(b.cells, s)
                  && Progress(board, MarkShipCells(b, s), draws, spent + 1, ships + [s], used + s.coordinates)
                  && OnSchedule(draws, n, spent + 1, ships + [s]))
            && (placed.None? ==>
                  Progress(board, b, draws, spent + 1, ships, used) && OnSchedule(draws, n, spent + 1, ships))
  {
    var placed := PlaceShip(|ships| + 1, used, draws[spent]);
    ScheduleStep(draws, n, spent, ships, used);
    if placed.Some? {
      GenerateStep(board, b, draws, n, spent, ships, used, placed.value);
    } else {
      SpendOne(board, b, draws, spent, ships, used);
    }
  }

  /** An accepted attempt misses every placed ship, so marking it extends
      the progress made. */
  lemma GenerateStep(board: Board, b: Board, draws: seq<Pick>, n: nat, spent: nat, ships: seq<Ship>, used: seq<Pos>, s: Ship)
    requires n <= 5 && ValidDraws(draws) && CoversTen(board.cells)
    requires |ships| < n && spent < |draws| && Progress(board, b, draws, spent, ships, used)
    requires PlaceShip(|ships| + 1, used, draws[spent]) == Some(s)
    ensures ShipInGrid(b.cells, s)
    ensures Progress(board, MarkShipCells(b, s), draws, spent + 1, ships + [s], used + s.coordinates)
  {
    ShipCoordsInRange(|ships| + 1, draws[spent]);
    assert ShipInGrid(board.cells, s);
    assert CoordSet(s) !! Occupied(ships) by {
      forall c | c in CoordSet(s) ensures c !in Occupied(ships) {
        assert c !in used;
      }
    }
    NewShipDisjoint(ships, s);
    MarkExtends(board, b, ships, s);
    FleetExtends(board, draws, spent, ships, used, s);
  }

  /** A rejected attempt uses up a draw and changes nothing else. */
  lemma SpendOne(board: Board, b: Board, draws: seq<Pick>, spent: nat, ships: seq<Ship>, used: seq<Pos>)
    requires spent < |draws| && Progress(board, b, draws, spent, ships, used)
    ensures Progress(board, b, draws, spent + 1, ships, used)
  {
    forall k | 0 <= k < |ships| ensures FromDraw(draws, spent + 1, k, ships[k]) {
      FromDrawLater(draws, spent, k, ships[k]);
    }
  }

  /** Appending the ship of draw `spent` keeps every ship coming from a
      draw, on the grid, and `used` equal to the squares of the fleet. */
  lemma FleetExtends(board: Board, draws: seq<Pick>, spent: nat, ships: seq<Ship>, used: seq<Pos>, s: Ship)
    requires spent < |draws| && s.coordinates == ShipCoords(|ships| + 1, draws[spent])
    requires forall k :: 0 <= k < |ships| ==> |ships[k].coordinates| == k + 1 && FromDraw(draws, spent, k, ships[k])
    requires forall c :: c in used <==> c in Occupied(ships)
    requires forall k :: 0 <= k < |ships| ==> ShipInGrid(board.cells, ships[k])
    requires ShipInGrid(board.cells, s)
    ensures var all := ships + [s];
            && (forall k :: 0 <= k < |all| ==> |all[k].coordinates| == k + 1 && FromDraw(draws, spent + 1, k, all[k]))
            && (forall c :: c in used + s.coordinates <==> c in Occupied(all))
            && (forall k :: 0 <= k < |all| ==> ShipInGrid(board.cells, all[k]))
  {
    OccupiedAppend(ships, s);
    var all := ships + [s];
    forall k | 0 <= k < |all| ensures |all[k].coordinates| == k + 1 && FromDraw(draws, spent + 1, k, all[k]) {
      if k < |ships| {
        assert all[k] == ships[k];
        FromDrawLater(draws, spent, k, ships[k]);
      } else {
        assert all[k] == s;
        assert FromDraw(draws, spent + 1, k, s) by {
          assert 0 <= spent < spent + 1 && s.coordinates == ShipCoords(k + 1, draws[spent]);
        }
      }
    }
    forall k | 0 <= k < |all| ensures ShipInGrid(board.cells, all[k]) {
      if k < |ships| {
        assert all[k] == ships[k];
      }
    }
  }

  /** A ship that came from one of the draws spent still does after one more. */
  lemma FromDrawLater(draws: seq<Pick>, spent: nat, k: nat, s: Ship)
    requires FromDraw(draws, spent, k, s)
    ensures FromDraw(draws, spent + 1, k, s)
  {
    var j :| 0 <= j < spent && j < |draws| && s.coordinates == ShipCoords(k + 1, draws[j]);
  }

  /** A ship missing every square of a disjoint fleet keeps it disjoint. */
  lemma NewShipDisjoint(ships: seq<Ship>, s: Ship)
    requires ShipsDisjoint(ships) && CoordSet(s) !! Occupied(ships)
    ensures ShipsDisjoint(ships + [s])
  {
    OccupiedDisjoint(ships, s);
    var all := ships + [s];
    forall i, j | 0 <= i < |all| && 0 <= j < |all| && i != j
      ensures CoordSet(all[i]) !! CoordSet(all[j])
    {
      if i < |ships| && j < |ships| {
        assert all[i] == ships[i] && all[j] == ships[j];
      }
    }
  }

  /** On schedule, the next draw is accepted at its first attempt and
      yields the next picked ship. */
  lemma ScheduleStep(draws: seq<Pick>, n: nat, spent: nat, ships: seq<Ship>, used: seq<Pos>)
    requires |ships| < n && spent < |draws|
    requires forall c :: c in used ==> c in Occupied(ships)
    requires ShipsDisjoint(ships) && OnSchedule(draws, n, spent, ships)
    ensures PicksDisjoint(draws, n) ==>
              var s := PickedShip(draws, |ships|);
              && PlaceShip(|ships| + 1, used, draws[spent]) == Some(s)
              && OnSchedule(draws, n, spent + 1, ships + [s])
  {
    if PicksDisjoint(draws, n) {
      var s := PickedShip(draws, |ships|);
      NextShipFits(draws, n, ships);
      FirstAttemptAccepted(draws, ships, used);
      var all := ships + [s];
      assert forall k :: 0 <= k < |ships| ==> all[k] == ships[k];
    }
  }

  /** A pick whose ship misses every square used so far is accepted. */
  lemma FirstAttemptAccepted(picks: seq<Pick>, ships: seq<Ship>, used: seq<Pos>)
    requires |ships| < |picks|
    requires forall c :: c in used ==> c in Occupied(ships)
    requires CoordSet(PickedShip(picks, |ships|)) !! Occupied(ships)
    ensures PlaceShip(|ships| + 1, used, picks[|ships|]) == Some(PickedShip(picks, |ships|))
  {
  }

  /** The next picked ship misses every ship picked before it. */
  lemma NextShipFits(picks: seq<Pick>, n: nat, ships: seq<Ship>)
    requires PicksDisjoint(picks, n) && |ships| < n
    requires forall k :: 0 <= k < |ships| ==> ships[k] == PickedShip(picks, k)
    ensures CoordSet(PickedShip(picks, |ships|)) !! Occupied(ships)
  {
    var s := PickedShip(picks, |ships|);
    forall k | 0 <= k < |ships| ensures CoordSet(s) !! CoordSet(ships[k]) {
      assert ships[k] == PickedShip(picks, k);
    }
    OccupiedDisjoint(ships, s);
  }

  /** `b` is `board` with exactly the squares of `ships` marked. */
  ghost predicate MarkedFor(board: Board, b: Board, ships: seq<Ship>) {
    && SameShape(board.cells, b.cells)
    && forall y, x :: InGrid(board.cells, y, x) ==>
         b.cells[y][x] == board.cells[y][x].(hasShip := board.cells[y][x].hasShip || Pos(x, y) in Occupied(ships))
  }

  /** Marking one more ship keeps the marked cells equal to the squares of
      the ships marked so far. */
  lemma MarkExtends(board: Board, b: Board, ships: seq<Ship>, s: Ship)
    requires MarkedFor(board, b, ships) && ShipInGrid(board.cells, s)
    ensures ShipInGrid(b.cells, s)
    ensures MarkedFor(board, MarkShipCells(b, s), ships + [s])
  {
    assert ShipInGrid(b.cells, s) by {
      forall c | c in s.coordinates ensures InGrid(b.cells, c.y, c.x) {
        assert InGrid(board.cells, c.y, c.x);
      }
    }
    OccupiedAppend(ships, s);
  }

  /** A new CPU: an empty shot record and a fleet generated from the
      draws, which is also the ship list of the CPU's own board (drawn at
      offset 0). */
  method NewCpu(numShips: nat, draws: seq<Pick>, gridSize: nat, colSize: int) returns (cpu: Cpu)
    requires numShips <= 5 && ValidDraws(draws)
    requires gridSize >= 10 && colSize > 0
    ensures cpu.hits == [] && cpu.miss == [] && cpu.shipsSunk == 0
    ensures cpu.board.ships == cpu.ships && cpu.board.shipSize == numShips
    ensures |cpu.ships| <= numShips
    ensures PicksDisjoint(draws, numShips) ==> |cpu.ships| == numShips
    ensures forall i :: 0 <= i < |cpu.ships| ==> |cpu.ships[i].coordinates| == i + 1
    ensures ShipsDisjoint(cpu.ships)
    ensures WellFormed(cpu.board, 0, colSize) && |cpu.board.cells| == gridSize
    ensures ShipCellsMatch(cpu.board)
    ensures cpu.board.powerups == NoPowerups
    ensures forall y, x :: InGrid(cpu.board.cells, y, x) ==>
              !cpu.board.cells[y][x].isHit && !cpu.board.cells[y][x].isActive && !cpu.board.cells[y][x].isHighlighted
    ensures numShips > 0 ==> !AllShipsSunk(cpu.board)
  {
    var empty := NewBoard(0, gridSize, numShips, colSize);
    var b, ships, _ := CreateShips(empty, numShips, draws);
    cpu := Cpu(ships, [], [], 0, b.(ships := ships));
    forall y, x | 0 <= y < gridSize && 0 <= x < gridSize
      ensures Placed(cpu.board.cells[y][x], x, y, 0, colSize)
      ensures !cpu.board.cells[y][x].isHit && !cpu.board.cells[y][x].isActive && !cpu.board.cells[y][x].isHighlighted
    {
      assert InGrid(empty.cells, y, x);
    }
    if numShips > 0 && |ships| == numShips {
      var c := ships[0].coordinates[0];
      assert c in ships[0].coordinates;
      assert InGrid(cpu.board.cells, c.y, c.x);
    }
  }

  /** The outcome of a CPU shot: its new state and the opposing board. */
  datatype Attack = Attack(cpu: Cpu, board: Board)

  /** Records a shot at the cell in row `row`, column `col`. The cell is
      shot at its own grid coordinate, read as a pixel position; the
      coordinate goes to `hits` when that shot takes effect and to `miss`
      otherwise. */
  function RecordHit(cpu: Cpu, other: Board, row: int, col: int): (r: Attack)
    requires InGrid(other.cells, row, col)
    ensures var c := other.cells[row][col];
            if Accepts(c, c.coordinate)
            then r.cpu.hits == cpu.hits + [At(c.coordinate)] && r.cpu.miss == cpu.miss
            else r.cpu.miss == cpu.miss + [c.coordinate] && r.cpu.hits == cpu.hits
    ensures r.cpu == cpu.(hits := r.cpu.hits, miss := r.cpu.miss)
    ensures r.board.ships == other.ships && r.board.shipSize == other.shipSize
    ensures r.board.powerups == other.powerups && SameShape(other.cells, r.board.cells)
    ensures forall y, x :: Changed(other.cells, r.board.cells, y, x) ==>
              y == row && x == col && r.board.cells[y][x] == other.cells[y][x].(isHit := true)
    ensures var c := other.cells[row][col];
            Accepts(c, c.coordinate) ==> InGrid(r.board.cells, row, col) && r.board.cells[row][col] == c.(isHit := true)
    ensures var c := other.cells[row][col];
            !Accepts(c, c.coordinate) ==> r.board == other
  {
    var c := other.cells[row][col];
    var shot := Hit(c, c.coordinate);
    var board := other.(cells := other.cells[row := other.cells[row][col := shot.cell]]);
    assert !shot.hit ==> board == other by {
      if !shot.hit {
        assert other.cells[row][col := c] == other.cells[row];
        assert other.cells[row := other.cells[row]] == other.cells;
      }
    }
    if shot.hit then
      Attack(cpu.(hits := cpu.hits + [At(c.coordinate)]), board)
    else
      Attack(cpu.(miss := cpu.miss + [c.coordinate]), board)
  }

  /** On a laid-out board a cell's own coordinate is never inside it, so
      the shot record only ever grows `miss` and the board never changes. */
  lemma RecordHitAlwaysMisses(cpu: Cpu, other: Board, row: int, col: int, offset: int, colSize: int)
    requires InGrid(other.cells, row, col)
    requires Placed(other.cells[row][col], col, row, offset, colSize)
    requires offset >= 0 && colSize >= 1
    ensures RecordHit(cpu, other, row, col) == Attack(cpu.(miss := cpu.miss + [Pos(col, row)]), other)
  {
    OwnCoordinateOutside(col, row, offset, colSize);
    assert other.cells[row][col := other.cells[row][col]] == other.cells[row];
    assert other.cells[row := other.cells[row]] == other.cells;
  }

  /** The easy strategy's shot at an unused target drawn by the random
      source: record the shot, then count a sunk ship when the sunk check
      says so. */
  function EasyAttack(cpu: Cpu, other: Board, target: Pos, colSize: int): (r: Attack)
    requires 0 <= target.x <= 9 && 0 <= target.y <= 9
    requires At(target) !in cpu.hits && target !in cpu.miss
    requires InGrid(other.cells, target.y, target.x)
    requires colSize > 0 && ShipsInGrid(other)
    ensures |r.cpu.hits| + |r.cpu.miss| == |cpu.hits| + |cpu.miss| + 1
    ensures var c := other.cells[target.y][target.x].coordinate;
            r.cpu.hits == cpu.hits + [At(c)] || r.cpu.miss == cpu.miss + [c]
    ensures cpu.shipsSunk <= r.cpu.shipsSunk <= cpu.shipsSunk + 1
    ensures r.board.ships == other.ships && ShipsInGrid(r.board)
    ensures SameShape(other.cells, r.board.cells)
    ensures r.cpu.shipsSunk == cpu.shipsSunk + 1 <==>
              CheckShipSunk(r.board, r.board.cells[target.y][target.x], colSize)
    ensures var c := other.cells[target.y][target.x];
            if Accepts(c, c.coordinate)
            then r.cpu.hits == cpu.hits + [At(c.coordinate)] && r.cpu.miss == cpu.miss
            else r.cpu.miss == cpu.miss + [c.coordinate] && r.cpu.hits == cpu.hits
    ensures r.cpu == cpu.(hits := r.cpu.hits, miss := r.cpu.miss, shipsSunk := r.cpu.shipsSunk)
    ensures r.board == RecordHit(cpu, other, target.y, target.x).board
    ensures r.board.shipSize == other.shipSize && r.board.powerups == other.powerups
    ensures var c := other.cells[target.y][target.x];
            if Accepts(c, c.coordinate)
            then r.board.cells[target.y][target.x] == c.(isHit := true)
                 && forall y, x :: Changed(other.cells, r.board.cells, y, x) ==> y == target.y && x == target.x
            else r.board == other
  {
    var recorded := RecordHit(cpu, other, target.y, target.x);
    assert ShipsInGrid(recorded.board) by {
      forall i | 0 <= i < |other.ships| ensures ShipInGrid(recorded.board.cells, other.ships[i]) {
        assert ShipInGrid(other.cells, other.ships[i]);
      }
    }
    var cell := recorded.board.cells[target.y][target.x];
    if CheckShipSunk(recorded.board, cell, colSize) then
      recorded.(cpu := recorded.cpu.(shipsSunk := recorded.cpu.shipsSunk + 1))
    else
      recorded
  }

  /** On a laid-out board the easy strategy records its target as a miss,
      so the next draw can never pick that target again; the board is not
      changed and `hits` never grows. */
  lemma EasyAttackRecordsMiss(cpu: Cpu, other: Board, target: Pos, offset: int, colSize: int)
    requires 0 <= target.x <= 9 && 0 <= target.y <= 9
    requires At(target) !in cpu.hits && target !in cpu.miss
    requires WellFormed(other, offset, colSize) && offset >= 0
    requires InGrid(other.cells, target.y, target.x)
    ensures var r := EasyAttack(cpu, other, target, colSize);
            r.cpu.miss == cpu.miss + [target] && r.cpu.hits == cpu.hits
            && r.board == other && target in r.cpu.miss
  {
    RecordHitAlwaysMisses(cpu, other, target.y, target.x, offset, colSize);
  }

  /** One `Fleet` entry per ship, in ship order. */
  function FleetEntries(ships: seq<Ship>): (r: seq<Entry>)
    ensures |r| == |ships|
    ensures forall i :: 0 <= i < |ships| ==> r[i] == Fleet(ships[i].coordinates)
  {
    if ships == [] then [] else [Fleet(ships[0].coordinates)] + FleetEntries(ships[1..])
  }

  /** The hard strategy's first call: it fires no shot and only copies every
      opposing ship's coordinate list into `hits`, in ship order. */
  function HardAttackSetup(cpu: Cpu, other: Board): (r: Cpu)
    requires |cpu.hits| == 0 && cpu.shipsSunk == 0
    ensures |r.hits| == |other.ships|
    ensures forall i :: 0 <= i < |other.ships| ==> r.hits[i] == Fleet(other.ships[i].coordinates)
    ensures r == cpu.(hits := r.hits)
  {
    cpu.(hits := cpu.hits + FleetEntries(other.ships))
  }
}

=== FILE: game.dfy ===
/** The match: whose turn it is, the selected shot pattern, the two boards
    and the optional computer opponent, and the end-of-game rule. */
module Games {
  import opened Types
  import opened Boards
  import opened Opponent

  /** The shot pattern the current player will fire. */
  datatype ShotKind = Single | Nuke | RunH | RunV | Volley | Radar

  /** The screen the game is showing. */
  datatype Screen = Start | GameMode | AiDifficulty | Selection | TurnTransition | Playing | End | BeginGame

  /** The match fields of the game object. A board is absent until the
      number of ships is chosen or a CPU game starts. */
  datatype Game = Game(
    numShips: int,
    currentPlayer: Player,
    canShoot: bool,
    selection: ShotKind,
    powerupActivity: bool,
    board1: Option<Board>,
    board2: Option<Board>,
    cpu: Option<Cpu>,
    difficulty: Option<string>,
    winner: Option<Player>,
    gameOver: bool,
    state: Screen)

  /** A new match: player one to move with a single shot, no powerup in
      use, nobody has won, and no board exists yet. */
  function NewGame(): (g: Game)
    ensures g.currentPlayer == One && g.selection == Single && !g.powerupActivity
    ensures !g.gameOver && g.winner == None && g.canShoot
    ensures g.board1 == None && g.board2 == None && g.cpu == None && g.difficulty == None
    ensures g.numShips == 1 && g.state == Start
  {
    Game(1, One, true, Single, false, None, None, None, None, None, false, Start)
  }

  /** Chooses the ship count and builds two empty boards for it: player
      one's drawn `halfHeight` pixels down, player two's at the top. */
  function SetNumShips(g: Game, n: int, gridSize: nat, halfHeight: int, colSize: int): (r: Game)
    ensures r.numShips == n && r.board1.Some? && r.board2.Some?
    ensures r.board1.value.shipSize == n && r.board1.value.ships == [] && r.board1.value.powerups == NoPowerups
    ensures r.board2.value.shipSize == n && r.board2.value.ships == [] && r.board2.value.powerups == NoPowerups
    ensures Laid(r.board1.value.cells, gridSize, halfHeight, colSize)
    ensures Laid(r.board2.value.cells, gridSize, 0, colSize)
    ensures forall y, x :: InGrid(r.board1.value.cells, y, x) ==> Pristine(r.board1.value.cells[y][x])
    ensures forall y, x :: InGrid(r.board2.value.cells, y, x) ==> Pristine(r.board2.value.cells[y][x])
    ensures r == g.(numShips := n, board1 := r.board1, board2 := r.board2)
  {
    g.(numShips := n,
       board1 := Some(NewBoard(halfHeight, gridSize, n, colSize)),
       board2 := Some(NewBoard(0, gridSize, n, colSize)))
  }

  /** The shot each inventory slot unlocks, in inventory order: Nuke,
      horizontal run, vertical run, Volley, Radar. */
  function SlotShot(i: int): ShotKind
    requires 0 <= i < 5
  {
    [Nuke, RunH, RunV, Volley, Radar][i]
  }

  /** Selects the shot for powerup key `k` (1..5); any other value leaves
      the selection as it is. */
  function RotateShotSelection(g: Game, k: int): (r: Game)
    ensures 1 <= k <= 5 ==> r.selection == SlotShot(k - 1)
    ensures !(1 <= k <= 5) ==> r == g
    ensures r == g.(selection := r.selection)
  {
    if k == 1 then g.(selection := Nuke)
    else if k == 2 then g.(selection := RunH)
    else if k == 3 then g.(selection := RunV)
    else if k == 4 then g.(selection := Volley)
    else if k == 5 then g.(selection := Radar)
    else g
  }

  /** Different keys select different shots, and no key selects the
      plain single shot. */
  lemma RotateIsInjective(g: Game, j: int, k: int)
    requires 1 <= j <= 5 && 1 <= k <= 5 && j != k
    ensures RotateShotSelection(g, j).selection != RotateShotSelection(g, k).selection
    ensures RotateShotSelection(g, j).selection != Single
  {
  }

  /** Marks a powerup as in use this turn; nothing else changes. */
  function SetPowerupActivity(g: Game): (r: Game)
    ensures r.powerupActivity && r.(powerupActivity := g.powerupActivity) == g
  {
    g.(powerupActivity := true)
  }

  /** Back to the single shot, with no powerup in use. */
  function ResetShotSelection(g: Game): (r: Game)
    ensures r.selection == Single && !r.powerupActivity
    ensures r.(selection := g.selection, powerupActivity := g.powerupActivity) == g
  {
    g.(selection := Single, powerupActivity := false)
  }

  /** Starts a game against the CPU: the CPU generates its fleet from the
      draws, player one gets an empty board, and player two's board IS the
      CPU's board. */
  method StartAiGame(g: Game, draws: seq<Pick>, gridSize: nat, halfHeight: int, colSize: int) returns (r: Game)
    requires 0 <= g.numShips <= 5 && ValidDraws(draws)
    requires gridSize >= 10 && colSize > 0
    ensures r.cpu.Some? && r.board1.Some? && r.board2.Some?
    ensures r.board2.value == r.cpu.value.board
    ensures r.board1.value.ships == [] && r.board1.value.shipSize == g.numShips
    ensures Laid(r.board1.value.cells, gridSize, halfHeight, colSize)
    ensures |r.board2.value.ships| <= g.numShips && ShipsDisjoint(r.board2.value.ships)
    ensures PicksDisjoint(draws, g.numShips) ==> |r.board2.value.ships| == g.numShips
    ensures WellFormed(r.board2.value, 0, colSize) && ShipCellsMatch(r.board2.value)
    ensures r.state == Selection
    ensures r == g.(cpu := r.cpu, board1 := r.board1, board2 := r.board2, state := Selection)
    ensures r.cpu.value.hits == [] && r.cpu.value.miss == [] && r.cpu.value.shipsSunk == 0
    ensures r.board2.value.shipSize == g.numShips
    ensures r.board1.value.powerups == NoPowerups && r.board2.value.powerups == NoPowerups
    ensures forall y, x :: InGrid(r.board1.value.cells, y, x) ==> Pristine(r.board1.value.cells[y][x])
    ensures forall y, x :: InGrid(r.board2.value.cells, y, x) ==>
              && !r.board2.value.cells[y][x].isHit && !r.board2.value.cells[y][x].isActive
              && !r.board2.value.cells[y][x].isHighlighted
    ensures g.numShips > 0 ==> CheckEndGame(r) == r
  {
    var cpu := NewCpu(g.numShips, draws, gridSize, colSize);
    r := g.(cpu := Some(cpu),
            board1 := Some(NewBoard(halfHeight, gridSize, g.numShips, colSize)),
            board2 := Some(cpu.board),
            state := Selection);
  }

  /** The hard strategy's first call is the one made with nothing recorded. */
  predicate HardFirstCall(c: Cpu) {
    |c.hits| == 0 && c.shipsSunk == 0
  }

  /** What the easy strategy needs from its draw: an unused target on
      player one's board. */
  ghost predicate EasyReady(g: Game, target: Pos, colSize: int) {
    && g.cpu.Some? && g.board1.Some?
    && 0 <= target.x <= 9 && 0 <= target.y <= 9
    && At(target) !in g.cpu.value.hits && target !in g.cpu.value.miss
    && InGrid(g.board1.value.cells, target.y, target.x)
    && colSize > 0 && ShipsInGrid(g.board1.value)
  }

  /** A call of the hard strategy that is not its first raises as soon as
      something is recorded: it indexes the grid with parts of a recorded
      entry and calls the cell's hit without the board it needs. */
  predicate HardRaises(c: Cpu) {
    !HardFirstCall(c) && |c.hits| != 0
  }

  /** The CPU's turn: dispatch on the difficulty, then hand the move back
      to player one. Without a CPU nothing happens. The medium strategy
      always raises (it indexes the grid with a coordinate pair), and so do
      the hard strategy's later calls once anything is recorded; then the
      move is never handed back. */
  function AiTurn(g: Game, target: Pos, colSize: int): (r: Outcome<Game>)
    requires g.cpu.Some? && g.difficulty == Some("easy") ==> EasyReady(g, target, colSize)
    requires g.cpu.Some? && g.difficulty == Some("hard") ==> g.board1.Some?
    ensures r.Raises? <==> g.cpu.Some? && (g.difficulty == Some("medium")
                                          || (g.difficulty == Some("hard") && HardRaises(g.cpu.value)))
    ensures g.cpu.None? ==> r == Done(g)
    ensures r.Done? && g.cpu.Some? ==> r.value.currentPlayer == One && r.value.cpu.Some?
    ensures g.cpu.Some? && g.difficulty == Some("easy") ==>
              var a := EasyAttack(g.cpu.value, g.board1.value, target, colSize);
              r.Done? && r.value.cpu == Some(a.cpu) && r.value.board1 == Some(a.board)
    ensures g.cpu.Some? && g.difficulty == Some("hard") && HardFirstCall(g.cpu.value) ==>
              r.Done? && r.value.cpu == Some(HardAttackSetup(g.cpu.value, g.board1.value)) && r.value.board1 == g.board1
    ensures g.cpu.Some? && g.difficulty == Some("hard") && !HardFirstCall(g.cpu.value) && |g.cpu.value.hits| == 0 ==>
              r == Done(g.(currentPlayer := One))
    ensures g.cpu.Some? && g.difficulty !in {Some("easy"), Some("medium"), Some("hard")} ==>
              r == Done(g.(currentPlayer := One))
    ensures r.Done? ==> r.value == g.(cpu := r.value.cpu, board1 := r.value.board1, currentPlayer := r.value.currentPlayer)
  {
    if g.cpu.None? then Done(g)
    else
      var cpu := g.cpu.value;
      if g.difficulty == Some("easy") then
        var a := EasyAttack(cpu, g.board1.value, target, colSize);
        Done(g.(cpu := Some(a.cpu), board1 := Some(a.board), currentPlayer := One))
      else if g.difficulty == Some("medium") then
        Raises
      else if g.difficulty == Some("hard") then
        if HardFirstCall(cpu) then Done(g.(cpu := Some(HardAttackSetup(cpu, g.board1.value)), currentPlayer := One))
        else if |cpu.hits| != 0 then Raises
        else Done(g.(currentPlayer := One))
      else
        Done(g.(currentPlayer := One))
  }

  /** Whenever the CPU's turn completes, player one moves next. */
  lemma AiTurnHandsBack(g: Game, target: Pos, colSize: int, d: string)
    requires g.cpu.Some? && g.difficulty == Some(d)
    requires d == "easy" ==> EasyReady(g, target, colSize)
    requires d == "hard" ==> g.board1.Some?
    ensures AiTurn(g, target, colSize).Done? <==> d != "medium" && !(d == "hard" && HardRaises(g.cpu.value))
    ensures AiTurn(g, target, colSize).Done? ==> AiTurn(g, target, colSize).value.currentPlayer == One
  {
  }

  /** The hard strategy never fires: against a board with ships, its first
      call records the fleet and its second call raises. */
  lemma HardSecondCallRaises(g: Game, target: Pos, colSize: int)
    requires g.cpu.Some? && g.difficulty == Some("hard") && g.board1.Some?
    requires HardFirstCall(g.cpu.value) && |g.board1.value.ships| > 0
    ensures AiTurn(g, target, colSize).Done?
    ensures AiTurn(AiTurn(g, target, colSize).value, target, colSize).Raises?
  {
  }

  /** Ends the game when a board is lost. Player one's board is checked
      first, so when both are lost player two wins. */
  function CheckEndGame(g: Game): (r: Game)
    requires g.board1.Some? && g.board2.Some?
    requires ShipsInGrid(g.board1.value) && ShipsInGrid(g.board2.value)
    ensures AllShipsSunk(g.board1.value) ==> r.gameOver && r.winner == Some(Two)
    ensures !AllShipsSunk(g.board1.value) && AllShipsSunk(g.board2.value) ==> r.gameOver && r.winner == Some(One)
    ensures !AllShipsSunk(g.board1.value) && !AllShipsSunk(g.board2.value) ==> r == g
    ensures r == g.(gameOver := r.gameOver, winner := r.winner)
  {
    if AllShipsSunk(g.board1.value) then
      g.(gameOver := true, winner := Some(Two))
    else if AllShipsSunk(g.board2.value) then
      g.(gameOver := true, winner := Some(One))
    else
      g
  }

  /** A board with every ship placed and every ship square hit ends the
      game in its opponent's favour, unless player one's board is also lost. */
  lemma LostBoardEndsGame(g: Game)
    requires g.board1.Some? && g.board2.Some?
    requires ShipsInGrid(g.board1.value) && ShipsInGrid(g.board2.value)
    requires |g.board2.value.ships| == g.board2.value.shipSize
    requires forall i, c :: 0 <= i < |g.board2.value.ships| && c in g.board2.value.ships[i].coordinates ==>
               g.board2.value.cells[c.y][c.x].isHit
    ensures CheckEndGame(g).gameOver
    ensures CheckEndGame(g).winner == Some(if AllShipsSunk(g.board1.value) then Two else One)
  {
  }

  /** The end of one pass of the main loop: with both boards present the
      end-of-game check runs, then, if player two is to move and there is
      a CPU, the CPU takes its turn. */
  function EndFrame(g: Game, target: Pos, colSize: int): (r: Outcome<Game>)
    requires g.board1.Some? && g.board2.Some?
    requires ShipsInGrid(g.board1.value) && ShipsInGrid(g.board2.value)
    requires g.currentPlayer == Two && g.cpu.Some? && g.difficulty == Some("easy") ==> EasyReady(g, target, colSize)
    ensures g.cpu.None? || g.currentPlayer == One ==> r == Done(CheckEndGame(g))
    ensures g.cpu.Some? && r.Done? ==> r.value.currentPlayer == One
    ensures r.Raises? ==> g.currentPlayer == Two && g.cpu.Some?
    ensures r.Done? ==> r.value.gameOver == CheckEndGame(g).gameOver && r.value.winner == CheckEndGame(g).winner
    ensures r.Done? ==> r.value == CheckEndGame(g).(cpu := r.value.cpu, board1 := r.value.board1,
                                                   currentPlayer := r.value.currentPlayer)
  {
    var e := CheckEndGame(g);
    assert e.cpu == g.cpu && e.currentPlayer == g.currentPlayer;
    if e.currentPlayer == Two && e.cpu.Some? then AiTurn(e, target, colSize) else Done(e)
  }

  /** Restarts after a finished game: nobody has won, the start screen is
      shown and both boards are rebuilt empty for the same ship count. The
      player to move, the CPU and the shot selection are kept. */
  function ResetGame(g: Game, gridSize: nat, halfHeight: int, colSize: int): (r: Game)
    ensures !r.gameOver && r.winner == None && r.state == Start
    ensures r.board1.Some? && r.board2.Some?
    ensures r.board1.value.ships == [] && r.board2.value.ships == []
    ensures Laid(r.board1.value.cells, gridSize, halfHeight, colSize)
    ensures Laid(r.board2.value.cells, gridSize, 0, colSize)
    ensures forall y, x :: InGrid(r.board1.value.cells, y, x) ==> Pristine(r.board1.value.cells[y][x])
    ensures forall y, x :: InGrid(r.board2.value.cells, y, x) ==> Pristine(r.board2.value.cells[y][x])
    ensures r.board1.value.shipSize == g.numShips && r.board2.value.shipSize == g.numShips
    ensures r.board1.value.powerups == NoPowerups && r.board2.value.powerups == NoPowerups
    ensures r.(gameOver := g.gameOver, winner := g.winner, state := g.state,
               board1 := g.board1, board2 := g.board2) == g
  {
    SetNumShips(g.(gameOver := false, winner := None, state := Start), g.numShips, gridSize, halfHeight, colSize)
  }

  /** A restarted game with at least one ship to place is not over, but
      with a ship count of zero it is lost by player one at once. */
  lemma ResetGameNotOver(g: Game, gridSize: nat, halfHeight: int, colSize: int)
    ensures var r := ResetGame(g, gridSize, halfHeight, colSize);
            CheckEndGame(r).gameOver <==> g.numShips == 0
  {
  }

  /** A board whose ship list is still short of its ship count never ends
      the game, however many of its cells are hit. */
  lemma ShortFleetNeverLoses(b: Board)
    requires ShipsInGrid(b) && |b.ships| != b.shipSize
    ensures !AllShipsSunk(b)
  {
  }
}

=== FILE: playing.dfy ===
/** The playing screen: turning a click into shot points, firing them at
    the opponent's board, the four-click volley, the powerup keys and the
    turn timer. */
module Playing {
  import opened Types
  import opened Cells
  import opened Boards
  import opened Games

  // ---------------------------------------------------------------------
  // Grid positions

  /** The grid square under a pixel: floor division by the square size. */
  function GridPosition(p: Pos, colSize: int): (g: Pos)
    requires colSize > 0
    ensures g.x * colSize <= p.x < g.x * colSize + colSize
    ensures g.y * colSize <= p.y < g.y * colSize + colSize
  {
    Pos(p.x / colSize, p.y / colSize)
  }

  /** On a board drawn at the top of the screen, a click inside a cell is
      in that cell's grid square. */
  lemma GridPositionOfCell(x: int, y: int, colSize: int, p: Pos)
    requires colSize > 0 && Contains(CellRect(x, y, 0, colSize), p)
    ensures GridPosition(p, colSize) == Pos(x, y)
  {
    FloorDivUnique(p.x, x, colSize);
    FloorDivUnique(p.y, y, colSize);
  }

  /** Moving a pixel by whole squares moves its grid square by as many. */
  lemma ShiftSquare(p: Pos, step: Pos, colSize: int)
    requires colSize > 0
    ensures GridPosition(Shift(p, step, colSize), colSize)
            == Pos(GridPosition(p, colSize).x + step.x, GridPosition(p, colSize).y + step.y)
  {
    FloorDivShift(p.x, step.x, colSize);
    FloorDivShift(p.y, step.y, colSize);
  }

  // ---------------------------------------------------------------------
  // Shot patterns

  /** `p` moved by `step` whole squares. */
  function Shift(p: Pos, step: Pos, colSize: int): Pos {
    Pos(p.x + step.x * colSize, p.y + step.y * colSize)
  }

  /** The nuke's squares, in the order they are fired: the click, then
      clockwise round its neighbours starting below it. */
  const NukeSteps: seq<Pos> := [Pos(0, 0), Pos(0, 1), Pos(1, 1), Pos(1, 0), Pos(1, -1),
                                Pos(0, -1), Pos(-1, -1), Pos(-1, 0), Pos(-1, 1)]

  /** A horizontal bombing run: the click, two squares right, two left. */
  const RunHSteps: seq<Pos> := [Pos(0, 0), Pos(1, 0), Pos(2, 0), Pos(-1, 0), Pos(-2, 0)]

  /** A vertical bombing run: the click, two squares down, two up. */
  const RunVSteps: seq<Pos> := [Pos(0, 0), Pos(0, 1), Pos(0, 2), Pos(0, -1), Pos(0, -2)]

  /** The steps a selection fires; every other selection fires the click alone. */
  function Steps(sel: ShotKind): seq<Pos> {
    match sel
    case Nuke => NukeSteps
    case RunH => RunHSteps
    case RunV => RunVSteps
    case _ => [Pos(0, 0)]
  }

  /** The pixel points one click fires at under the given selection. */
  function Expand(click: Pos, sel: ShotKind, colSize: int): (ps: seq<Pos>)
    ensures |ps| == |Steps(sel)| && ps[0] == click
    ensures var x, y, c := click.x, click.y, colSize;
            sel == Nuke ==>
              ps == [click, Pos(x, y + c), Pos(x + c, y + c), Pos(x + c, y), Pos(x + c, y - c),
                     Pos(x, y - c), Pos(x - c, y - c), Pos(x - c, y), Pos(x - c, y + c)]
    ensures var x, y, c := click.x, click.y, colSize;
            sel == RunH ==> ps == [click, Pos(x + c, y), Pos(x + c + c, y), Pos(x - c, y), Pos(x - c - c, y)]
    ensures var x, y, c := click.x, click.y, colSize;
            sel == RunV ==> ps == [click, Pos(x, y + c), Pos(x, y + c + c), Pos(x, y - c), Pos(x, y - c - c)]
    ensures sel !in {Nuke, RunH, RunV} ==> ps == [click]
    ensures forall i :: 0 <= i < |ps| ==> ps[i] == Shift(click, Steps(sel)[i], colSize)
  {
    var steps := Steps(sel);
    seq(|steps|, i requires 0 <= i < |steps| => Shift(click, steps[i], colSize))
  }

  /** The grid squares a click's points land in: the clicked square moved
      by each step of the selection. */
  lemma ExpandSquares(click: Pos, sel: ShotKind, colSize: int)
    requires colSize > 0
    ensures var ps := Expand(click, sel, colSize);
            var g := GridPosition(click, colSize);
            forall i :: 0 <= i < |ps| ==>
              GridPosition(ps[i], colSize) == Pos(g.x + Steps(sel)[i].x, g.y + Steps(sel)[i].y)
  {
    var ps := Expand(click, sel, colSize);
    forall i | 0 <= i < |ps|
      ensures GridPosition(ps[i], colSize)
              == Pos(GridPosition(click, colSize).x + Steps(sel)[i].x, GridPosition(click, colSize).y + Steps(sel)[i].y)
    {
      ShiftSquare(click, Steps(sel)[i], colSize);
    }
  }

  /** The position of step (dx, dy) in the nuke's firing order. */
  function NukeIndex(dx: int, dy: int): (i: int)
    requires -1 <= dx <= 1 && -1 <= dy <= 1
    ensures 0 <= i < 9 && NukeSteps[i] == Pos(dx, dy)
  {
    [[6, 7, 8], [5, 0, 1], [4, 3, 2]][dx + 1][dy + 1]
  }

  /** Every nuke step is one square or less in each direction, and
      `NukeIndex` recovers its position in the firing order. */
  lemma NukeStepsIndexed()
    ensures forall i :: 0 <= i < 9 ==>
              -1 <= NukeSteps[i].x <= 1 && -1 <= NukeSteps[i].y <= 1
              && NukeIndex(NukeSteps[i].x, NukeSteps[i].y) == i
  {
    forall i | 0 <= i < 9
      ensures -1 <= NukeSteps[i].x <= 1 && -1 <= NukeSteps[i].y <= 1
              && NukeIndex(NukeSteps[i].x, NukeSteps[i].y) == i
    {
      if i == 0 {} else if i == 1 {} else if i == 2 {} else if i == 3 {}
      else if i == 4 {} else if i == 5 {} else if i == 6 {} else if i == 7 {}
    }
  }

  /** A nuke fires once into each of the nine squares of the 3x3 block
      centred on the clicked square, and nowhere else. */
  lemma NukeBlock(click: Pos, colSize: int)
    requires colSize > 0
    ensures var ps := Expand(click, Nuke, colSize);
            var g := GridPosition(click, colSize);
            && |ps| == 9
            && (forall i :: 0 <= i < 9 ==>
                  var s := GridPosition(ps[i], colSize);
                  -1 <= s.x - g.x <= 1 && -1 <= s.y - g.y <= 1)
            && (forall i, j :: 0 <= i < j < 9 ==> GridPosition(ps[i], colSize) != GridPosition(ps[j], colSize))
            && (forall s: Pos :: -1 <= s.x - g.x <= 1 && -1 <= s.y - g.y <= 1 ==>
                  exists i :: 0 <= i < 9 && GridPosition(ps[i], colSize) == s)
  {
    ExpandSquares(click, Nuke, colSize);
    NukeStepsIndexed();
    NukeDistinct(click, colSize);
    NukeCovers(click, colSize);
  }

  /** No two of the nuke's points land in the same square. */
  lemma NukeDistinct(click: Pos, colSize: int)
    requires colSize > 0
    ensures var ps := Expand(click, Nuke, colSize);
            forall i, j :: 0 <= i < j < 9 ==> GridPosition(ps[i], colSize) != GridPosition(ps[j], colSize)
  {
    var ps := Expand(click, Nuke, colSize);
    ExpandSquares(click, Nuke, colSize);
    NukeStepsIndexed();
    forall i, j | 0 <= i < j < 9
      ensures GridPosition(ps[i], colSize) != GridPosition(ps[j], colSize)
    {
      assert NukeIndex(NukeSteps[i].x, NukeSteps[i].y) == i;
      assert NukeIndex(NukeSteps[j].x, NukeSteps[j].y) == j;
    }
  }

  /** Every square of the 3x3 block round the click gets one of the
      nuke's points. */
  lemma NukeCovers(click: Pos, colSize: int)
    requires colSize > 0
    ensures var ps := Expand(click, Nuke, colSize);
            var g := GridPosition(click, colSize);
            forall s: Pos :: -1 <= s.x - g.x <= 1 && -1 <= s.y - g.y <= 1 ==>
              exists i :: 0 <= i < 9 && GridPosition(ps[i], colSize) == s
  {
    var ps := Expand(click, Nuke, colSize);
    var g := GridPosition(click, colSize);
    ExpandSquares(click, Nuke, colSize);
    forall s: Pos | -1 <= s.x - g.x <= 1 && -1 <= s.y - g.y <= 1
      ensures exists i :: 0 <= i < 9 && GridPosition(ps[i], colSize) == s
    {
      var i := NukeIndex(s.x - g.x, s.y - g.y);
      assert GridPosition(ps[i], colSize) == s;
    }
  }

  /** A bombing run fires into five distinct squares of the clicked
      square's row (horizontal) or column (vertical), at most two away. */
  lemma RunLine(click: Pos, colSize: int, horizontal: bool)
    requires colSize > 0
    ensures var ps := Expand(click, if horizontal then RunH else RunV, colSize);
            var g := GridPosition(click, colSize);
            && |ps| == 5
            && (forall i :: 0 <= i < 5 ==>
                  var s := GridPosition(ps[i], colSize);
                  if horizontal then s.y == g.y && -2 <= s.x - g.x <= 2
                  else s.x == g.x && -2 <= s.y - g.y <= 2)
            && (forall i, j :: 0 <= i < j < 5 ==> GridPosition(ps[i], colSize) != GridPosition(ps[j], colSize))
  {
    ExpandSquares(click, if horizontal then RunH else RunV, colSize);
  }

  // ---------------------------------------------------------------------
  // Firing

  /** A board after a run of shots, and whether each shot took effect. */
  datatype Salvo = Salvo(board: Board, hits: seq<bool>)

  /** Fires at each point in order, each shot drawing its own award roll. */
  function FireAll(b: Board, ps: seq<Pos>, rolls: seq<Roll>): (r: Salvo)
    requires |rolls| >= |ps|
    ensures |r.hits| == |ps|
    ensures r.board.ships == b.ships && r.board.shipSize == b.shipSize
    ensures SameShape(b.cells, r.board.cells)
    ensures (forall i :: 0 <= i < |ps| ==> !r.hits[i]) ==> r.board == b
    decreases |ps|
  {
    if ps == [] then Salvo(b, [])
    else
      var first := HitPos(b, ps[0], rolls[0]);
      var rest := FireAll(first.board, ps[1..], rolls[1..]);
      var r := Salvo(rest.board, [first.cell.Some?] + rest.hits);
      assert r.hits[0] == first.cell.Some?;
      assert forall i :: 0 <= i < |rest.hits| ==> rest.hits[i] == r.hits[i + 1];
      r
  }

  /** On a well-formed board, after a salvo a cell is hit exactly when it
      was hit before or some point of the salvo lies in its square. The
      order of the points and the award rolls do not matter to this. */
  lemma {:induction false} FireAllMarks(b: Board, ps: seq<Pos>, rolls: seq<Roll>, offset: int, colSize: int)
    requires WellFormed(b, offset, colSize) && |rolls| >= |ps|
    ensures WellFormed(FireAll(b, ps, rolls).board, offset, colSize)
    ensures forall y, x :: InGrid(b.cells, y, x) ==>
              (FireAll(b, ps, rolls).board.cells[y][x].isHit
               <==> b.cells[y][x].isHit
                    || exists i :: 0 <= i < |ps| && Contains(CellRect(x, y, offset, colSize), ps[i]))
    decreases |ps|
  {
    if ps != [] {
      var first := HitPos(b, ps[0], rolls[0]);
      HitPosKeepsLayout(b, ps[0], rolls[0], offset, colSize);
      HitPosMarks(b, ps[0], rolls[0], offset, colSize);
      FireAllMarks(first.board, ps[1..], rolls[1..], offset, colSize);
      var after := FireAll(b, ps, rolls).board;
      forall y, x | InGrid(b.cells, y, x)
        ensures after.cells[y][x].isHit
                <==> b.cells[y][x].isHit
                     || exists i :: 0 <= i < |ps| && Contains(CellRect(x, y, offset, colSize), ps[i])
      {
        var r := CellRect(x, y, offset, colSize);
        assert InGrid(first.board.cells, y, x);
        if exists i :: 0 <= i < |ps| - 1 && Contains(r, ps[1..][i]) {
          var i :| 0 <= i < |ps| - 1 && Contains(r, ps[1..][i]);
          assert ps[i + 1] == ps[1..][i];
        }
        if exists i :: 0 <= i < |ps| && Contains(r, ps[i]) {
          var i :| 0 <= i < |ps| && Contains(r, ps[i]);
          if i > 0 {
            assert ps[1..][i - 1] == ps[i];
          }
        }
      }
    }
  }

  /** A shot takes effect exactly when some cell accepts its point. */
  lemma FireOne(b: Board, p: Pos, roll: Roll)
    ensures var r := FireAll(b, [p], [roll]);
            r.hits == [HitPos(b, p, roll).cell.Some?]
            && (r.hits[0] <==> exists y, x :: InGrid(b.cells, y, x) && Accepts(b.cells[y][x], p))
  {
    var r := FireAll(b, [p], [roll]);
    var first := HitPos(b, p, roll);
    assert [p][1..] == [];
    assert r == Salvo(first.board, [first.cell.Some?]);
  }

  /** Shot `i` of a salvo takes effect exactly when a shot at its point,
      with its roll, takes effect on the board the earlier shots left. */
  lemma {:induction false} FireAllFlag(b: Board, ps: seq<Pos>, rolls: seq<Roll>, i: int)
    requires |rolls| >= |ps| && 0 <= i < |ps|
    ensures FireAll(b, ps, rolls).hits[i] <==> HitPos(FireAll(b, ps[..i], rolls).board, ps[i], rolls[i]).cell.Some?
    decreases i
  {
    var first := HitPos(b, ps[0], rolls[0]);
    var rest := FireAll(first.board, ps[1..], rolls[1..]);
    assert FireAll(b, ps, rolls).hits == [first.cell.Some?] + rest.hits;
    if i == 0 {
      assert ps[..0] == [];
    } else {
      FireAllFlag(first.board, ps[1..], rolls[1..], i - 1);
      FireAllPrefix(b, ps, rolls, i);
      assert ps[1..][i - 1] == ps[i] && rolls[1..][i - 1] == rolls[i];
    }
  }

  /** Every flag of a salvo says whether its own shot took effect on the
      board the earlier shots left. */
  lemma FireAllFlags(b: Board, ps: seq<Pos>, rolls: seq<Roll>)
    requires |rolls| >= |ps|
    ensures forall i :: 0 <= i < |ps| ==>
              (FireAll(b, ps, rolls).hits[i] <==> HitPos(FireAll(b, ps[..i], rolls).board, ps[i], rolls[i]).cell.Some?)
  {
    forall i | 0 <= i < |ps|
      ensures FireAll(b, ps, rolls).hits[i] <==> HitPos(FireAll(b, ps[..i], rolls).board, ps[i], rolls[i]).cell.Some?
    {
      FireAllFlag(b, ps, rolls, i);
    }
  }

  /** The first `i` shots of a salvo are its first shot followed by the
      next `i - 1` on the board the first one left. */
  lemma FireAllPrefix(b: Board, ps: seq<Pos>, rolls: seq<Roll>, i: int)
    requires 0 < i <= |ps| && |rolls| >= |ps|
    ensures FireAll(b, ps[..i], rolls).board
            == FireAll(HitPos(b, ps[0], rolls[0]).board, ps[1..][..i - 1], rolls[1..]).board
  {
    var pre := ps[..i];
    assert pre[0] == ps[0] && pre[1..] == ps[1..][..i - 1];
  }

  /** Some point of `ps` lies in the square of a cell of `b` not yet hit. */
  ghost predicate TakesEffect(b: Board, ps: seq<Pos>, offset: int, colSize: int) {
    exists i, y, x :: 0 <= i < |ps| && InGrid(b.cells, y, x) && !b.cells[y][x].isHit
                      && Contains(CellRect(x, y, offset, colSize), ps[i])
  }

  /** On a well-formed board a single shot takes effect exactly when its
      point lies in the square of a cell not hit beforehand. */
  lemma FirstShotEffect(b: Board, p: Pos, roll: Roll, offset: int, colSize: int)
    requires WellFormed(b, offset, colSize)
    ensures HitPos(b, p, roll).cell.Some? <==>
            exists y, x :: InGrid(b.cells, y, x) && !b.cells[y][x].isHit && Contains(CellRect(x, y, offset, colSize), p)
  {
    forall y, x | InGrid(b.cells, y, x)
      ensures Accepts(b.cells[y][x], p) <==> !b.cells[y][x].isHit && Contains(CellRect(x, y, offset, colSize), p)
    {
      assert Placed(b.cells[y][x], x, y, offset, colSize);
    }
  }

  /** A shot of a salvo takes effect only on a point in the square of a
      cell that was not hit before the salvo. */
  lemma {:induction false} FireAllSound(b: Board, ps: seq<Pos>, rolls: seq<Roll>, i: int, offset: int, colSize: int)
    requires WellFormed(b, offset, colSize) && |rolls| >= |ps|
    requires 0 <= i < |ps| && FireAll(b, ps, rolls).hits[i]
    ensures TakesEffect(b, ps, offset, colSize)
    decreases |ps|
  {
    var first := HitPos(b, ps[0], rolls[0]);
    var rest := FireAll(first.board, ps[1..], rolls[1..]);
    assert FireAll(b, ps, rolls).hits == [first.cell.Some?] + rest.hits;
    if i == 0 {
      FirstShotEffect(b, ps[0], rolls[0], offset, colSize);
      var y, x :| InGrid(b.cells, y, x) && !b.cells[y][x].isHit && Contains(CellRect(x, y, offset, colSize), ps[0]);
      assert 0 <= 0 < |ps| && Contains(CellRect(x, y, offset, colSize), ps[0]);
    } else {
      HitPosKeepsLayout(b, ps[0], rolls[0], offset, colSize);
      assert rest.hits[i - 1];
      FireAllSound(first.board, ps[1..], rolls[1..], i - 1, offset, colSize);
      TakesEffectBefore(b, ps[0], rolls[0], ps, offset, colSize);
    }
  }

  /** A salvo's later points that would take effect after its first shot
      would already have done so before it. */
  lemma TakesEffectBefore(b: Board, p: Pos, roll: Roll, ps: seq<Pos>, offset: int, colSize: int)
    requires ps != [] && TakesEffect(HitPos(b, p, roll).board, ps[1..], offset, colSize)
    ensures TakesEffect(b, ps, offset, colSize)
  {
    var b' := HitPos(b, p, roll).board;
    var j, y, x :| 0 <= j < |ps[1..]| && InGrid(b'.cells, y, x) && !b'.cells[y][x].isHit
                   && Contains(CellRect(x, y, offset, colSize), ps[1..][j]);
    assert InGrid(b.cells, y, x) && !b.cells[y][x].isHit by {
      if Changed(b.cells, b'.cells, y, x) {}
    }
    assert ps[1..][j] == ps[j + 1];
  }

  /** A salvo with a point in the square of a cell not hit beforehand has
      a shot that takes effect. */
  lemma {:induction false} FireAllComplete(b: Board, ps: seq<Pos>, rolls: seq<Roll>, i: int, y: int, x: int,
                                           offset: int, colSize: int)
    requires WellFormed(b, offset, colSize) && |rolls| >= |ps|
    requires 0 <= i < |ps| && InGrid(b.cells, y, x) && !b.cells[y][x].isHit
    requires Contains(CellRect(x, y, offset, colSize), ps[i])
    ensures exists j :: 0 <= j < |ps| && FireAll(b, ps, rolls).hits[j]
    decreases |ps|
  {
    var first := HitPos(b, ps[0], rolls[0]);
    var rest := FireAll(first.board, ps[1..], rolls[1..]);
    assert FireAll(b, ps, rolls).hits == [first.cell.Some?] + rest.hits;
    FirstShotEffect(b, ps[0], rolls[0], offset, colSize);
    if i == 0 || first.cell.Some? {
      assert i == 0 ==> Contains(CellRect(x, y, offset, colSize), ps[0]);
      assert FireAll(b, ps, rolls).hits[0];
    } else {
      assert first.board == b && ps[1..][i - 1] == ps[i];
      FireAllComplete(b, ps[1..], rolls[1..], i - 1, y, x, offset, colSize);
      var j :| 0 <= j < |ps[1..]| && rest.hits[j];
      assert FireAll(b, ps, rolls).hits[j + 1];
    }
  }

  /** On a well-formed board some shot of a salvo takes effect exactly when
      one of its points lies in the square of a cell not hit beforehand. */
  lemma FireAllEffect(b: Board, ps: seq<Pos>, rolls: seq<Roll>, offset: int, colSize: int)
    requires WellFormed(b, offset, colSize) && |rolls| >= |ps|
    ensures (exists i :: 0 <= i < |ps| && FireAll(b, ps, rolls).hits[i]) <==> TakesEffect(b, ps, offset, colSize)
  {
    if exists i :: 0 <= i < |ps| && FireAll(b, ps, rolls).hits[i] {
      var i :| 0 <= i < |ps| && FireAll(b, ps, rolls).hits[i];
      FireAllSound(b, ps, rolls, i, offset, colSize);
    }
    if TakesEffect(b, ps, offset, colSize) {
      var i, y, x :| 0 <= i < |ps| && InGrid(b.cells, y, x) && !b.cells[y][x].isHit
                     && Contains(CellRect(x, y, offset, colSize), ps[i]);
      FireAllComplete(b, ps, rolls, i, y, x, offset, colSize);
    }
  }

  // ---------------------------------------------------------------------
  // Whose board

  /** The board the current player fires at: player two's while player
      one moves, player one's otherwise. */
  function Target(g: Game): Board
    requires g.board1.Some? && g.board2.Some?
  {
    if g.currentPlayer == One then g.board2.value else g.board1.value
  }

  /** The current player's own board. */
  function Own(g: Game): Board
    requires g.board1.Some? && g.board2.Some?
  {
    if g.currentPlayer == One then g.board1.value else g.board2.value
  }

  /** Replaces the board the current player fires at. */
  function WithTarget(g: Game, b: Board): (r: Game)
    requires g.board1.Some? && g.board2.Some?
    ensures r.board1.Some? && r.board2.Some?
    ensures Target(r) == b && Own(r) == Own(g)
    ensures r == g.(board1 := r.board1, board2 := r.board2)
  {
    if g.currentPlayer == One then g.(board2 := Some(b)) else g.(board1 := Some(b))
  }

  // ---------------------------------------------------------------------
  // Mouse clicks

  /** The volley's progress on the playing screen: clicks so far and the
      points clicked. */
  datatype VolleyState = VolleyState(clicks: int, positions: seq<Pos>)

  const NoVolley := VolleyState(0, [])

  /** The playing screen's state after an event. */
  datatype Turn = Turn(game: Game, volley: VolleyState)

  /** The radar reads the first ship of player two's board, and when
      player two uses it also the first ship of player one's. */
  predicate RadarReady(g: Game)
    requires g.board1.Some? && g.board2.Some?
  {
    |g.board2.value.ships| > 0 && (g.currentPlayer == Two ==> |g.board1.value.ships| > 0)
  }

  /** Enough award rolls for whatever this click may fire. */
  predicate RollsFor(v: VolleyState, rolls: seq<Roll>) {
    |rolls| >= 9 && |rolls| > |v.positions|
  }

  /** Fires `ps` at the current player's target; only the target board
      changes, and the second part says whether any point took effect. */
  function FireAt(g: Game, ps: seq<Pos>, rolls: seq<Roll>): (r: (Game, bool))
    requires g.board1.Some? && g.board2.Some? && |rolls| >= |ps|
    ensures r.0.board1.Some? && r.0.board2.Some?
    ensures Own(r.0) == Own(g) && r.0 == g.(board1 := r.0.board1, board2 := r.0.board2)
    ensures var s := FireAll(Target(g), ps, rolls);
            Target(r.0) == s.board && (r.1 <==> exists i :: 0 <= i < |s.hits| && s.hits[i])
  {
    var s := FireAll(Target(g), ps, rolls);
    (WithTarget(g, s.board), exists i :: 0 <= i < |s.hits| && s.hits[i])
  }

  /** On a well-formed target the flag is set exactly when one of the
      points lies in the square of a target cell not hit beforehand. */
  lemma FireAtEffect(g: Game, ps: seq<Pos>, rolls: seq<Roll>, offset: int, colSize: int)
    requires g.board1.Some? && g.board2.Some? && |rolls| >= |ps|
    requires WellFormed(Target(g), offset, colSize)
    ensures FireAt(g, ps, rolls).1 <==> TakesEffect(Target(g), ps, offset, colSize)
  {
    FireAllEffect(Target(g), ps, rolls, offset, colSize);
    assert |FireAll(Target(g), ps, rolls).hits| == |ps|;
  }

  /** A mouse click at `p` while the playing screen is shown, with the
      cell highlighting taken as display only. Without the right to shoot
      nothing happens. A volley collects clicks and fires all four on the
      fourth, then ends the shooting. Any other selection fires its
      pattern at once and ends the shooting if any of its shots took
      effect. The radar's message and highlight are not modelled. */
  function Click(g: Game, v: VolleyState, p: Pos, rolls: seq<Roll>, colSize: int): (r: Turn)
    requires g.board1.Some? && g.board2.Some? && RollsFor(v, rolls)
    requires g.canShoot && g.selection == Radar ==> RadarReady(g)
    ensures !g.canShoot ==> r == Turn(g, v)
    ensures r.game.board1.Some? && r.game.board2.Some?
    ensures Own(r.game) == Own(g)
    ensures r.game == WithTarget(g, Target(r.game)).(canShoot := r.game.canShoot)
    ensures g.canShoot && g.selection == Volley && v.clicks + 1 != 4 ==>
              r == Turn(g, VolleyState(v.clicks + 1, v.positions + [p]))
    ensures g.canShoot && g.selection == Volley && v.clicks + 1 == 4 ==>
              && r.volley == NoVolley && !r.game.canShoot
              && Target(r.game) == FireAll(Target(g), v.positions + [p], rolls).board
    ensures g.canShoot && g.selection != Volley ==>
              var s := FireAll(Target(g), Expand(p, g.selection, colSize), rolls);
              && r.volley == v && Target(r.game) == s.board
              && (r.game.canShoot <==> forall i :: 0 <= i < |s.hits| ==> !s.hits[i])
  {
    if !g.canShoot then Turn(g, v)
    else if g.selection == Volley then
      var v' := VolleyState(v.clicks + 1, v.positions + [p]);
      if v'.clicks == 4 then
        Turn(FireAt(g, v'.positions, rolls).0.(canShoot := false), NoVolley)
      else
        Turn(g, v')
    else
      var f := FireAt(g, Expand(p, g.selection, colSize), rolls);
      Turn(f.0.(canShoot := !f.1), v)
  }

  /** The click handler as written: a volley click first highlights the
      clicked cell, and a radar click the first ship's cells, by calling
      methods the board class does not have, so both raise before any shot
      is fired. Every other click fires as `Click` does. */
  function ClickAsWritten(g: Game, v: VolleyState, p: Pos, rolls: seq<Roll>, colSize: int): (r: Outcome<Turn>)
    requires g.board1.Some? && g.board2.Some? && RollsFor(v, rolls)
    ensures r.Raises? <==> g.canShoot && (g.selection == Volley || g.selection == Radar)
    ensures r.Done? ==> r.value == Click(g, v, p, rolls, colSize)
  {
    if !g.canShoot then Done(Turn(g, v))
    else if g.selection == Volley || g.selection == Radar then Raises
    else
      var f := FireAt(g, Expand(p, g.selection, colSize), rolls);
      Done(Turn(f.0.(canShoot := !f.1), v))
  }

  /** The first volley click of a turn: as written it raises, where the
      intended handler records the point and leaves the game as it was. */
  lemma VolleyClickRaises(g: Game, p: Pos, rolls: seq<Roll>, colSize: int)
    requires g.board1.Some? && g.board2.Some? && |rolls| >= 9
    requires g.canShoot && g.selection == Volley
    ensures ClickAsWritten(g, NoVolley, p, rolls, colSize).Raises?
    ensures Click(g, NoVolley, p, rolls, colSize) == Turn(g, VolleyState(1, [p]))
  {
  }

  /** A volley click before the fourth only records the point. */
  lemma VolleyStep(g: Game, v: VolleyState, p: Pos, rolls: seq<Roll>, colSize: int)
    requires g.board1.Some? && g.board2.Some? && RollsFor(v, rolls)
    requires g.canShoot && g.selection == Volley && v.clicks + 1 != 4
    ensures Click(g, v, p, rolls, colSize) == Turn(g, VolleyState(v.clicks + 1, v.positions + [p]))
  {
  }

  /** A volley in progress has had at most three clicks, one point per
      click; every click keeps it so. */
  ghost predicate VolleyValid(v: VolleyState) {
    0 <= v.clicks <= 3 && |v.positions| == v.clicks
  }

  lemma ClickKeepsVolley(g: Game, v: VolleyState, p: Pos, rolls: seq<Roll>, colSize: int)
    requires g.board1.Some? && g.board2.Some? && RollsFor(v, rolls)
    requires g.canShoot && g.selection == Radar ==> RadarReady(g)
    requires VolleyValid(v)
    ensures VolleyValid(Click(g, v, p, rolls, colSize).volley)
  {
  }

  /** Four volley clicks from a fresh volley fire the four points in click
      order, all at the same board, and nothing fires before the fourth. */
  lemma FourClickVolley(g: Game, p1: Pos, p2: Pos, p3: Pos, p4: Pos, rolls: seq<Roll>, colSize: int)
    requires g.board1.Some? && g.board2.Some? && |rolls| >= 9
    requires g.canShoot && g.selection == Volley
    ensures Click(g, NoVolley, p1, rolls, colSize) == Turn(g, VolleyState(1, [p1]))
    ensures Click(g, VolleyState(1, [p1]), p2, rolls, colSize) == Turn(g, VolleyState(2, [p1, p2]))
    ensures Click(g, VolleyState(2, [p1, p2]), p3, rolls, colSize) == Turn(g, VolleyState(3, [p1, p2, p3]))
    ensures var t4 := Click(g, VolleyState(3, [p1, p2, p3]), p4, rolls, colSize);
            && Target(t4.game) == FireAll(Target(g), [p1, p2, p3, p4], rolls).board
            && !t4.game.canShoot && t4.volley == NoVolley
  {
    VolleyStep(g, NoVolley, p1, rolls, colSize);
    VolleyStep(g, VolleyState(1, [p1]), p2, rolls, colSize);
    assert [p1] + [p2] == [p1, p2];
    VolleyStep(g, VolleyState(2, [p1, p2]), p3, rolls, colSize);
    assert [p1, p2] + [p3] == [p1, p2, p3];
    assert [p1, p2, p3] + [p4] == [p1, p2, p3, p4];
  }

  /** A single shot on a well-formed board ends the shooting exactly when
      some cell accepts the click; when none does, the board is untouched
      and the player may click again. */
  lemma SingleShotEndsShooting(g: Game, v: VolleyState, p: Pos, rolls: seq<Roll>, offset: int, colSize: int)
    requires g.board1.Some? && g.board2.Some? && RollsFor(v, rolls)
    requires g.canShoot && g.selection == Single
    ensures var r := Click(g, v, p, rolls, colSize);
            && (!r.game.canShoot <==> exists y, x :: InGrid(Target(g).cells, y, x) && Accepts(Target(g).cells[y][x], p))
            && (r.game.canShoot ==> r.game == g)
  {
    var ps := Expand(p, Single, colSize);
    assert ps == [p];
    FireOne(Target(g), p, rolls[0]);
    assert FireAll(Target(g), ps, rolls) == FireAll(Target(g), [p], [rolls[0]]);
  }

  /** On a well-formed target, a click leaves a target cell hit exactly
      when it was hit or one of the click's points lies in its square, and
      the player keeps the right to shoot exactly when none of the points
      lies in the square of a target cell not hit beforehand. */
  lemma ClickMarks(g: Game, v: VolleyState, p: Pos, rolls: seq<Roll>, offset: int, colSize: int)
    requires g.board1.Some? && g.board2.Some? && RollsFor(v, rolls)
    requires g.canShoot && g.selection != Volley
    requires g.selection == Radar ==> RadarReady(g)
    requires WellFormed(Target(g), offset, colSize)
    ensures var r := Click(g, v, p, rolls, colSize);
            var t := Target(r.game);
            var ps := Expand(p, g.selection, colSize);
            && WellFormed(t, offset, colSize)
            && (forall y, x :: InGrid(Target(g).cells, y, x) ==>
                 (t.cells[y][x].isHit
                  <==> Target(g).cells[y][x].isHit
                       || exists i :: 0 <= i < |ps| && Contains(CellRect(x, y, offset, colSize), ps[i])))
            && (r.game.canShoot <==> !TakesEffect(Target(g), ps, offset, colSize))
  {
    var ps := Expand(p, g.selection, colSize);
    FireAllMarks(Target(g), ps, rolls, offset, colSize);
    FireAtEffect(g, ps, rolls, offset, colSize);
  }

  // ---------------------------------------------------------------------
  // The turn timer and the powerup keys

  /** The turn-transition timer fires: shooting is allowed again and the
      turn-transition screen is shown. */
  function TurnTimer(g: Game): (r: Game)
    ensures r.canShoot && r.state == TurnTransition
    ensures r.(canShoot := g.canShoot, state := g.state) == g
  {
    g.(canShoot := true, state := TurnTransition)
  }

  /** The game together with the inventory being edited by a key press. */
  datatype Keyed = Keyed(game: Game, inv: Inventory)

  /** The test the key handler makes for powerup key `k`: if `k` was
      pressed and slot k-1 is stocked, select its shot, mark a powerup as
      in use and empty the slot. */
  function UseSlot(s: Keyed, key: int, k: int): (r: Keyed)
    requires 1 <= k <= 5
    ensures key == k && s.inv[k - 1] ==>
              && r.game.selection == SlotShot(k - 1) && r.game.powerupActivity
              && !r.inv[k - 1] && (forall j :: 0 <= j < 5 && j != k - 1 ==> r.inv[j] == s.inv[j])
              && r.game.(selection := s.game.selection, powerupActivity := s.game.powerupActivity) == s.game
    ensures !(key == k && s.inv[k - 1]) ==> r == s
  {
    if key == k then
      if s.inv[k - 1] then
        Keyed(SetPowerupActivity(RotateShotSelection(s.game, k)), s.inv[k - 1 := false])
      else
        s
    else
      s
  }

  /** The five key tests in order. A key matches at most one of them, so
      at most one slot is used. */
  function UseSlots(s: Keyed, key: int): (r: Keyed)
    ensures 1 <= key <= 5 && s.inv[key - 1] ==>
              r == Keyed(SetPowerupActivity(RotateShotSelection(s.game, key)), s.inv[key - 1 := false])
    ensures !(1 <= key <= 5 && s.inv[key - 1]) ==> r == s
  {
    UseSlot(UseSlot(UseSlot(UseSlot(UseSlot(s, key, 1), key, 2), key, 3), key, 4), key, 5)
  }

  /** A key press on the playing screen. While a powerup is in use nothing
      happens. Otherwise keys 1 to 5 draw on the inventory kept on the
      opponent's board: a stocked slot selects its shot and is used up. */
  function KeyPress(g: Game, key: int): (r: Game)
    requires g.board1.Some? && g.board2.Some?
    ensures r.board1.Some? && r.board2.Some?
    ensures g.powerupActivity ==> r == g
    ensures !g.powerupActivity && 1 <= key <= 5 && GetPowerups(Target(g))[key - 1] ==>
              && r.selection == SlotShot(key - 1) && r.powerupActivity
              && GetPowerups(Target(r)) == GetPowerups(Target(g))[key - 1 := false]
              && Target(r).cells == Target(g).cells && Target(r).ships == Target(g).ships
              && Target(r) == SetPowerups(Target(g), GetPowerups(Target(g))[key - 1 := false])
              && Own(r) == Own(g)
              && r.(selection := g.selection, powerupActivity := g.powerupActivity,
                    board1 := g.board1, board2 := g.board2) == g
    ensures !(1 <= key <= 5 && GetPowerups(Target(g))[key - 1]) ==> r == g
  {
    if g.powerupActivity then g
    else
      var s := UseSlots(Keyed(g, GetPowerups(Target(g))), key);
      WithTarget(s.game, SetPowerups(Target(s.game), s.inv))
  }

  /** Only one powerup per turn: once a key has selected one, further keys
      change nothing until the selection is reset. */
  lemma OnePowerupPerTurn(g: Game, k1: int, k2: int)
    requires g.board1.Some? && g.board2.Some?
    requires KeyPress(g, k1).powerupActivity
    ensures KeyPress(KeyPress(g, k1), k2) == KeyPress(g, k1)
  {
  }

  /** A key press uses up at most one stocked powerup, and only when it
      selects that powerup's shot. */
  lemma KeyPressUsesOne(g: Game, key: int)
    requires g.board1.Some? && g.board2.Some?
    ensures var before := multiset(GetPowerups(Target(g)));
            var after := multiset(GetPowerups(Target(KeyPress(g, key))));
            && (after[true] == before[true] || after[true] + 1 == before[true])
            && (after[true] + 1 == before[true] <==> !g.powerupActivity && 1 <= key <= 5 && GetPowerups(Target(g))[key - 1])
  {
  }
}

=== FILE: turn_transition.dfy ===
/** The screen between turns: the continue button hands the move to the
    other player with a fresh single shot. */
module Transition {
  import opened Types
  import opened Boards
  import opened Games
  import opened Playing

  /** The player who moves next. */
  function OtherPlayer(p: Player): (q: Player)
    ensures q != p
  {
    if p == One then Two else One
  }

  /** Handing over twice gives the move back. */
  lemma OtherPlayerInvolution(p: Player)
    ensures OtherPlayer(OtherPlayer(p)) == p
  {
  }

  /** The continue button: the other player moves, on the playing screen,
      with the single shot and no powerup in use. Nothing else changes. */
  function Continue(g: Game): (r: Game)
    ensures r.currentPlayer != g.currentPlayer
    ensures r.state == Playing && r.selection == Single && !r.powerupActivity
    ensures r.(currentPlayer := g.currentPlayer, state := g.state,
               selection := g.selection, powerupActivity := g.powerupActivity) == g
  {
    ResetShotSelection(g.(currentPlayer := OtherPlayer(g.currentPlayer), state := Playing))
  }

  /** Each player's board changes hands as the target: after the hand-over
      the new player fires at the board the old player was defending. */
  lemma ContinueSwapsTarget(g: Game)
    requires g.board1.Some? && g.board2.Some?
    ensures Target(Continue(g)) == Own(g) && Own(Continue(g)) == Target(g)
  {
  }

  /** A full exchange (shooting ends, the timer fires, continue is pressed)
      leaves the other player free to shoot a single shot and to pick a
      powerup, and two exchanges give the move back. */
  lemma RoundTrip(g: Game)
    ensures var h := Continue(TurnTimer(g));
            && h.canShoot && h.state == Playing && h.selection == Single && !h.powerupActivity
            && h.currentPlayer == OtherPlayer(g.currentPlayer)
            && Continue(TurnTimer(h)).currentPlayer == g.currentPlayer
  {
  }

  /** After a hand-over, a key for a stocked powerup selects it: the
      once-per-turn lock has been released. */
  lemma ContinueUnlocksPowerups(g: Game, key: int)
    requires g.board1.Some? && g.board2.Some?
    requires 1 <= key <= 5 && GetPowerups(Target(Continue(g)))[key - 1]
    ensures KeyPress(Continue(g), key).selection == SlotShot(key - 1)
    ensures KeyPress(Continue(g), key).powerupActivity
  {
  }
}

=== FILE: types.dfy ===
/** Vocabulary shared by every part of the game model. */
module Types {

  /** An integer pair. The game uses plain tuples both for pixel positions
      on the screen and for (column, row) grid coordinates; so does the model. */
  datatype Pos = Pos(x: int, y: int)

  /** The two sides of a match. */
  datatype Player = One | Two

  /** A value that may be absent (Python's `None`). */
  datatype Option<+T> = None | Some(value: T)

  /** The end of a step of the program: it completes with a value, or an
      exception escapes from it and the program stops. */
  datatype Outcome<+T> = Done(value: T) | Raises

  /** Floor division by a positive divisor has exactly one possible quotient.
      Dafny's `/` is Euclidean, which agrees with Python's `//` whenever the
      divisor is positive. */
  lemma FloorDivUnique(a: int, q: int, d: int)
    requires d > 0
    requires q * d <= a < q * d + d
    ensures a / d == q
  {
    var k := a / d;
    assert a == k * d + a % d && 0 <= a % d < d;
    MulLess(k, q + 1, d);
    MulLess(q, k + 1, d);
  }

  /** Multiplying by a positive factor preserves strict order. */
  lemma MulLess(a: int, b: int, d: int)
    requires d > 0
    ensures a < b <==> a * d < b * d
  {
    if a < b {
      assert (b - a) * d > 0;
    } else {
      assert (a - b) * d >= 0;
    }
  }

  /** Shifting a value by whole multiples of the divisor shifts its floor
      quotient by the same count. */
  lemma FloorDivShift(a: int, k: int, d: int)
    requires d > 0
    ensures (a + k * d) / d == a / d + k
  {
    var q := a / d;
    assert q * d <= a < q * d + d;
    assert (q + k) * d == q * d + k * d;
    FloorDivUnique(a + k * d, q + k, d);
  }
}
